=== FILE: README.md ===
# Newscope request core in Dafny

This project models the request logic of a small news-publishing site. It covers two server endpoints, the article record, and two pieces of client logic:

- **Author-application intake** (`POST /api/author/apply`). The handler checks that a resume is present, then validates the applicant's name, e-mail, mobile number and bio. Next it connects to MongoDB once and streams the resume into GridFS. From the stream's `close` handler it e-mails staff. It answers 400, 200, 206 ("stored but not notified") or 500.
- **News collection** (`/api/news`).
  - POST normalises the form and parses it with a five-key zod schema. It then hands the result to the `News` model. The outcomes are 201, 400 or 500.
  - GET lists every article newest first.
- **The `News` record**. Its required paths are checked, the title is stored trimmed, the author must be an ObjectId reference, and the store sets both timestamps.
- **`truncateTitle`** from the news card.
- **`handleSubmit`** from the author application form. It is a state machine over the form state and the server's reply.

Everything is pure. The database, GridFS, the mail transport, `request.formData()` and the clock are outside the model. Their results come in as oracle values: `AuthorApply.World` and `NewsRoute.Database`. What the intake handler asks of them is recorded as a trace of `AuthorApply.Effect`s. Statements like "nothing was uploaded" or "the mail was attempted only after the upload closed" are properties of that trace.

zod's `email()` and `url()` patterns are not modelled. They are the two uninterpreted predicates of `Forms.Syntax`. The only fact assumed about them is `Forms.RejectsEmpty`: the empty string is neither an e-mail address nor a URL.

Files: `wrappers.dfy` (Option/Result), `js_text.dfy` (JavaScript `trim`, decimal rendering, the mobile pattern), `forms.dfy` (form values, truthiness, zod string checks), `author_apply.dfy`, `news_model.dfy`, `news_route.dfy`, `news_card.dfy`, `apply_form.dfy`.

Notes on what the code does:

- GET `/api/news` applies no filter. It returns every stored item.
- The reading-time estimate is computed in the single-article page (`app/news/[id]/page.tsx`), which is UI outside this model.
- `author` is an ObjectId reference in the model. It is not a free string.
- On a GridFS stream error, the handler rejects the promise it returned, and it does so without `await`. The rejection therefore escapes the handler's `catch`, and the intended 500 body is not what the client receives. `AuthorApply.Respond` marks this outcome `Rejected`.

## Model

| member | source | states |
|---|---|---|
| `JsText.TrimStart` | models/News.ts:16-20 | the leading-whitespace cut returns a suffix of the input whose removed prefix is all whitespace and whose first character is not whitespace |
| `JsText.TrimEnd` | models/News.ts:16-20 | the trailing-whitespace cut returns a prefix of the input whose removed suffix is all whitespace and whose last character is not whitespace |
| `JsText.Trim` | models/News.ts:16-20 | the schema's `trim` leaves the input's core: the input is that core framed by whitespace runs, and the core has no whitespace at either end |
| `JsText.TrimUnique` | models/News.ts:16-20 | any whitespace-framed, unpadded core of a string is exactly what trimming returns, so `Trim` matches the declarative reading of `trim` |
| `JsText.TrimIdempotent` | models/News.ts:16-20 | a stored (trimmed) title is unchanged by trimming again |
| `JsText.DecimalString` | app/api/author/apply/route.ts:78 | `${Date.now()}` is a non-empty string of decimal digits without a leading zero, except for 0 itself |
| `JsText.DecimalRoundTrip` | app/api/author/apply/route.ts:78 | reading back the decimal text of a timestamp gives the timestamp |
| `Forms.OrNull` | app/api/news/route.ts:61 | `v \|\| null` is null exactly when the value is falsy (absent, empty string), and otherwise is the value itself, unchanged |
| `Forms.CheckString` | app/api/author/apply/route.ts:9-14 | a zod string field yields no issue exactly when the value is a string passing the check, at most one issue, always on that field; a type issue for null or a file, and the schema's own message for a string that fails the check |
| `Forms.CheckNullableString` | app/api/news/route.ts:12 | a nullable string field accepts null, and otherwise accepts only a string passing the check; it reports at most one issue, always on that field: a type issue for a file, and the schema's own message for a string that fails the check |
| `AuthorApply.Validate` | app/api/author/apply/route.ts:9-14 | `safeParse` succeeds exactly when name has ≥ 2 characters, e-mail is well formed, mobile is exactly ten ASCII digits and bio has ≥ 10 characters; on failure the error list is non-empty, names each failing field and no other, and a string that fails its rule carries the schema's message for that field (e.g. "Mobile number must be 10 digits") |
| `AuthorApply.ShortMobileRejected` | app/api/author/apply/route.ts:55-67 | a five-digit mobile gives a validation error naming `mobile` with no effect at all |
| `AuthorApply.ConnectMongo` | app/api/author/apply/route.ts:19-30 | a new client is created exactly when none is cached or the cached one is disconnected; otherwise the cached client is reused as it is |
| `AuthorApply.ConnectOnce` | app/api/author/apply/route.ts:19-30 | after a successful connection the next call reuses that client; after a failed one the next call replaces it |
| `AuthorApply.LeadingDigits` | app/api/author/apply/route.ts:78 | the length of the all-digit prefix of a stored filename, the next character not being a digit |
| `AuthorApply.StoredFilename` | app/api/author/apply/route.ts:78 | the filename `<Date.now()>-<resume.name>` parses back to exactly that timestamp and original name, and ends with the original name |
| `AuthorApply.Recipient` | app/api/author/apply/route.ts:113 | the notification goes to the configured address when it is set and non-empty, and to the fixed default `newscoope.in@gmail.com` when it is unset or empty; never to an empty address |
| `AuthorApply.OnClose` | app/api/author/apply/route.ts:98-146 | the close handler attempts one mail to the recipient with the fixed subject, carrying the four fields and a link to the closed file; delivery gives 200 data `{name, email, mobile, resumePath = /files/<id>}` without the bio, failure gives the stored-but-not-notified outcome |
| `AuthorApply.Upload` | app/api/author/apply/route.ts:77-149 | the resume is written under the generated filename with its type, `user = name` and the submission date; it never opens a client; a stream error is the only upload failure and its trace is that write alone, with no mail; on close, the rest of the trace and the outcome are exactly those of the close handler for this upload's file id, so the mail is the one `OnClose` sends for it |
| `AuthorApply.Submit` | app/api/author/apply/route.ts:32-160 | a missing resume gives 400 and a validation error exactly when the resume is present but a field is invalid; neither connects, uploads nor mails nor changes the cached client; mail only after close; no mail on upload failure or crash; full success exactly when all checks pass, the connection holds, the resume is a file, the upload closes and the mail is delivered; a crash exactly when the fields pass but the connection fails or the resume is not a file; an upload failure exactly when the stream errors after a good connection; stored-but-not-notified exactly when the upload closes and the mail fails; a crash carries the connection's error or the not-a-file message according to which step failed; full success carries the submitted name, e-mail and mobile with `/files/<id>`; once the fields pass, the cached client afterwards is the one `connectMongo` leaves, a client is opened (as the trace's first effect) exactly when `connectMongo` had to create one, and the resume is written under the generated filename exactly on the three upload outcomes |
| `AuthorApply.SubmitNotifies` | app/api/author/apply/route.ts:98-146 | whenever a request ends stored, with or without the mail delivered, the trace holds the close of its upload and the attempted notification mail to the recipient, carrying the validated fields and a link to that upload's file |
| `AuthorApply.HandlerConnectsOnce` | app/api/author/apply/route.ts:16-30 | once a request leaves a connected client cached, the next request opens no client and leaves that same client cached |
| `AuthorApply.Respond` | app/api/author/apply/route.ts:47-158 | only full success reports `success: true` and data; 200, 206, 400 and 500 each identify their outcomes, so full success and stored-but-not-notified are distinguishable; only the upload failure is a rejection; each body carries its outcome's message ("Resume file is required", the thrown error's text, "Failed to upload resume", the success and partial-success messages), a validation failure carries zod's issue list, and full success carries the applicant's data |
| `AuthorApply.HappyPathAndDegradedPath` | app/api/author/apply/route.ts:128-145 | a valid application whose upload closes gets 200 with its fields and resume path when the mail is delivered, 206 with the partial-success message when not, and in both cases the resume write is in the trace and is not undone |
| `NewsModel.LowerHexDigit` | models/News.ts:37-41 | a hexadecimal digit's lower-case form stands for the same number, and is the digit itself when already lower case |
| `NewsModel.CastObjectId` | models/News.ts:37-41 | casting a 24-digit hexadecimal string gives a stored ObjectId with the same value at every digit, written in lower case |
| `NewsModel.PathErrors` | models/News.ts:15-44 | no error exactly when the document is admissible; `author` is reported required exactly when absent and uncastable exactly when not 24 hex digits; `title` is reported exactly when empty after trimming |
| `NewsModel.OnlyAuthorMissing` | models/News.ts:15-41 | a document whose other required paths are all present but which has no author is refused with exactly one error, `author` required |
| `NewsModel.Create` | models/News.ts:15-44 | a document is stored exactly when title (trimmed), description, thumbnail and category are non-empty and the author is an ObjectId; the record then satisfies `Valid`, holds the submitted values with the title trimmed and the author cast, and has both timestamps set to the store's time |
| `NewsModel.VideoLinkOptional` | models/News.ts:29-32 | the presence or value of `videoLink` never changes whether a document is accepted |
| `NewsModel.BlankTitleRefused` | models/News.ts:16-20 | a title of whitespace only is refused as missing |
| `NewsRoute.BuildNewsData` | app/api/news/route.ts:57-65 | the form values are carried over, the video link becomes null exactly when absent or empty, and the author is the fixed placeholder id |
| `NewsRoute.Parse` | app/api/news/route.ts:8-14 | parsing succeeds exactly when title, description and category are non-empty strings, thumbnail is a URL and the video link is null or a URL; the result holds only the five schema keys with the submitted values; a failure lists at least one issue and names each of the five fields exactly when that field breaks its rule, with the schema's message for that field ("Title is required", "Description is required", "Invalid thumbnail URL", "Invalid video URL", "Category is required") |
| `NewsRoute.Insert` | app/api/news/route.ts:73 | `News.create` never raises a zod error; it appends a valid record exactly when the model admits the document and the insert succeeds, and the record is the one the model builds from the document with the store's id and time; an admissible document whose insert fails gives the store's insert error; otherwise the collection is left as it was |
| `NewsRoute.PostAsWritten` | app/api/news/route.ts:48-106 | as written, no request creates an article and the collection never changes; a failed connection gives 500 with the connection error; validation failure (400) occurs exactly when the database connects and the schema refuses the form, and carries zod's issue list for the form; a connected request the schema accepts fails in the model with `author` required among the errors |
| `NewsRoute.Post` | app/api/news/route.ts:48-106 | with the author passed on: a failed connection gives 500 with the connection error; 400 with zod's non-empty issue list for the form exactly when the schema refuses it (nothing stored); a whitespace-only title the schema accepts is refused by the model with `title` required; creation exactly when the schema accepts, the trimmed title is non-empty and the insert succeeds, and a failed insert of such a form gives the store's insert error; the created record is appended and holds the submitted values, the video link exactly when one was given, the placeholder author and both timestamps set to the store's time |
| `NewsRoute.PlaceholderIsObjectId` | app/api/news/route.ts:64 | the hard-coded author id is a valid ObjectId and is stored unchanged |
| `NewsRoute.RespondPost` | app/api/news/route.ts:75-104 | 201 with `success: true`, the created message and the record exactly for creation; 400 with the validation message and zod's issue list exactly for a validation failure; 500 with the failure message and the failure's cause exactly for any other failure |
| `NewsRoute.AsWrittenRejectsWellFormedPost` | app/api/news/route.ts:64-73 | on a concrete well-formed form the handler as written answers 500 for a missing author, while the corrected handler answers 201 |
| `NewsRoute.AsWrittenLosesAuthor` | app/api/news/route.ts:64-73 | for every request that connects, passes the schema and has a non-blank title, the handler as written fails with exactly the missing-`author` error, while the corrected handler creates the article exactly when the insert succeeds |
| `NewsRoute.InsertNewestFirst` | app/api/news/route.ts:22-24 | inserting into a newest-first list keeps it newest first and adds exactly that item |
| `NewsRoute.SortNewestFirst` | app/api/news/route.ts:22-24 | `sort({createdAt: -1})` returns a permutation of the items ordered by `createdAt` descending |
| `NewsRoute.List` | app/api/news/route.ts:16-45 | with the database readable: 200, `success: true`, the message "News items retrieved successfully." and every stored item newest first, unfiltered; otherwise 500, `success: false`, the message "Failed to retrieve news items." and an empty list |
| `NewsRoute.CreatedArticleIsListed` | app/api/news/route.ts:22-82 | an article that POST creates is in the next successful listing |
| `NewsRoute.RejectedPostChangesNothing` | app/api/news/route.ts:70-104 | a POST that does not create an article leaves the listing exactly as it was |
| `NewsCard.SubstringEnd` | components/NewsCard.tsx:20 | `substring(0, end)` stops within the string, exactly at `end` when that is in range |
| `NewsCard.TruncateTitle` | components/NewsCard.tsx:19-21 | a title no longer than `maxLength` is returned unchanged; a longer one becomes its first `maxLength` characters followed by `...` |
| `NewsCard.TruncateBounded` | components/NewsCard.tsx:19-21 | for a non-negative `maxLength`, the result is never longer than `maxLength + 3` |
| `NewsCard.TruncateIdempotent` | components/NewsCard.tsx:19-21 | truncating an already truncated title changes nothing |
| `NewsCard.DefaultLength` | components/NewsCard.tsx:19 | the default limit is 150: titles up to 150 characters are kept and a 151-character title becomes 153 characters |
| `ApplyAuthorForm.HandleSubmit` | components/ApplyAuthorForm.tsx:19-47 | every submit clears success and never edits the inputs; an empty field, missing resume or unchecked terms gives the fill-in-all error before the mobile check; a mobile that is not ten digits gives the 10-digit error; only a form passing both is posted, with the error cleared and the five values as the body |
| `ApplyAuthorForm.Settle` | components/ApplyAuthorForm.tsx:49-67 | the form shows success exactly when the reply says `success: true`, and then every field resets to empty/null/false; otherwise the inputs are kept and the error is the server's message if non-empty, else the fallback, and an exception always gives the fallback |
| `ApplyAuthorForm.Receive` | components/ApplyAuthorForm.tsx:44-49 | a resolved server response reaches the form with its `success` flag and message; a rejected one reaches it as an exception |
| `ApplyAuthorForm.SubmitEndToEnd` | components/ApplyAuthorForm.tsx:24-67 | a request the form posts never meets the server's missing-resume or mobile rule; the form shows success exactly on full server success, the 206 message when the mail failed, and the fallback for a validation error list or a failed upload |

## Findings

| source | as written | input that shows it | evidently intended | confidence | as-written member | corrected member |
|---|---|---|---|---|---|---|
| app/api/news/route.ts:64-73 | `newsData.author` is not a key of `newsFormSchema`, so zod's default key stripping drops it. `News.create` then fails the model's required `author` path and answers 500 "Failed to create news item." | title "Budget passed", description "Parliament approved the budget.", thumbnail "https://img.example/budget.jpg", empty video link, category "Politics", database up | the placeholder author reaches `News.create` and the article is created with 201 | high; not executed | `NewsRoute.PostAsWritten` (with `NewsRoute.AsWrittenLosesAuthor` and `NewsRoute.AsWrittenRejectsWellFormedPost`) | `NewsRoute.Post` |

A second consequence of the same schema needs no fix, but it is worth knowing. A title made only of whitespace passes zod's `min(1)` and is then trimmed to "" by the model. The store refuses it, so POST answers 500 rather than 400 (`NewsModel.BlankTitleRefused`).

## Left out

- I/O and library internals are outside the model: MongoDB, GridFS streams, nodemailer, `Readable`, and the `SIGINT` handler that closes the client. Their results are oracle parameters. The database name and the GridFS collection name are configuration with no effect on outcomes.
- `request.formData()` failures are left out. A body that cannot be parsed reaches the same outer `catch` (500 with the error's message) as a failed connection, which is modelled.
- zod's `email()` and `url()` patterns are the uninterpreted predicates of `Forms.Syntax`. zod's own wording for type errors is not reproduced; `Forms.Issue` records the field and the type received.
- The notification's HTML layout is left out. `AuthorApply.Mail` keeps its recipient, subject, the four fields and the resume link. The sender address is configuration.
- `console` logging is left out.
- `AuthorApply.Submit`: a `Crashed` message is the connection's error text from the oracle, or V8's TypeError text when the resume entry is a string and not a file. Other thrown errors are not distinguished.
- `ApplyAuthorForm.Receive`: the framework's answer to a rejected handler promise is assumed not to be JSON, so the form's `response.json()` throws. The framework is not part of this model.
- `NewsModel.PathErrors`: mongoose reports all failing paths. The order given here (schema order) is this model's choice. A 12-byte binary string, which mongoose also casts to an ObjectId, is not modelled.
- String lengths count `char`s. JavaScript counts UTF-16 code units, so titles with characters outside the Basic Multilingual Plane are not modelled exactly. `truncateTitle` with a fractional `maxLength` is also not modelled.
- `formatDate` in the news card is locale date formatting, and is left out.
- The card's JSX and the form's JSX, `handleResumeChange`, and edits the user makes while a request is pending are left out.
- The single-article route, the publish page, the banner, the sidebar, the admin layout, the fetch helper and the Next.js configuration are not part of this model. They are UI or plumbing around the core.
- Category and search filtering are not done by `GET /api/news`: the search page passes its query to a `NewsList` component, the category page passes the constant `" "` rather than the route's category, and `NewsList` is not part of this model. The reading-time estimate of the single-article page is UI and is left out.
- Concurrent requests share the module-level `client` and `gfs` of the intake handler (app/api/author/apply/route.ts:16-30). Interleavings are not modelled: `AuthorApply.Submit` takes the cached client as input and returns the cache it leaves.
- `NewsRoute.RespondPost`: the 500 body's `error` field is `error.message` in the code; the model carries the structured cause (`NewsRoute.Failure`) and does not reproduce mongoose's or the driver's message wording.

=== FILE: apply_form.dfy ===
/**
 * The client side of the author application (`handleSubmit` in the apply form):
 * a state machine over the form state. A submit first clears the error and
 * success flags, then either stops at the presence or mobile-format gate or
 * posts the form; the server's answer then either resets the form or shows an
 * error.
 */
module ApplyAuthorForm {
  import opened Wrappers
  import opened JsText
  import opened Forms
  import AuthorApply

  const FillAllMessage := "Please fill in all fields and agree to the terms."
  const MobileFormatMessage := "Please enter a valid 10-digit mobile number."
  const FallbackMessage := "An error occurred. Please try again."

  /** The component's state hooks. */
  datatype FormState = FormState(
    name: string, email: string, mobile: string, bio: string,
    resume: Option<File>, agreeTerms: bool,
    error: string, success: bool)

  /** The state after a submit and the request it posts, if any. */
  datatype Submission = Submission(state: FormState, request: Option<AuthorApply.Application>)

  /** No input is empty, a resume is chosen and the terms are accepted. */
  predicate AllFilled(s: FormState) {
    s.name != [] && s.email != [] && s.mobile != [] && s.bio != [] && s.resume.Some? && s.agreeTerms
  }

  /** The multipart body built from the form. */
  function RequestOf(s: FormState): AuthorApply.Application
    requires s.resume.Some?
  {
    AuthorApply.Application(Str(s.name), Str(s.email), Str(s.mobile), Str(s.bio), Blob(s.resume.value))
  }

  /** `handleSubmit` up to the request. Inputs are never touched; the presence
      gate is checked before the mobile format, and only a form passing both
      is posted, with the error left cleared. */
  function HandleSubmit(s: FormState): (sub: Submission)
    ensures !sub.state.success
    ensures sub.state.(error := s.error, success := s.success) == s
    ensures sub.request.Some? <==> AllFilled(s) && MatchesMobilePattern(s.mobile)
    ensures !AllFilled(s) ==> sub.state.error == FillAllMessage
    ensures AllFilled(s) && !MatchesMobilePattern(s.mobile) ==> sub.state.error == MobileFormatMessage
    ensures sub.request.Some? ==> sub.state.error == [] && sub.request.value == RequestOf(s)
  {
    var cleared := s.(error := [], success := false);
    if !AllFilled(s) then Submission(cleared.(error := FillAllMessage), None)
    else if !MatchesMobilePattern(s.mobile) then Submission(cleared.(error := MobileFormatMessage), None)
    else Submission(cleared, Some(RequestOf(s)))
  }

  /** What the handler gets from `await response.json()`: the body's `success`
      and `message`, or an exception from `fetch` or from parsing the body. */
  datatype Reply = Json(success: bool, message: Option<string>) | Threw

  /** A submit that passed both gates and awaits the reply: error and success cleared. */
  predicate Pending(s: FormState) {
    s.error == [] && !s.success
  }

  /** The form state once the reply is handled, starting from a pending submit. */
  function Settle(s: FormState, reply: Reply): (t: FormState)
    requires Pending(s)
    ensures t.success <==> reply.Json? && reply.success
    ensures t.success ==> t == FormState([], [], [], [], None, false, [], true)
    ensures !t.success ==> t.(error := s.error, success := s.success) == s
    ensures !t.success && reply.Json? && reply.message.Some? && reply.message.value != [] ==> t.error == reply.message.value
    ensures !t.success && !(reply.Json? && reply.message.Some? && reply.message.value != []) ==> t.error == FallbackMessage
  {
    match reply
    case Threw => s.(error := FallbackMessage)
    case Json(ok, message) =>
      if ok then FormState([], [], [], [], None, false, [], true)
      else if message.Some? && message.value != [] then s.(error := message.value)
      else s.(error := FallbackMessage)
  }

  /** How a settled server promise reaches the handler. A rejected handler
      promise is answered by the framework with an error page that is not JSON,
      so parsing it throws. */
  function Receive(s: AuthorApply.Settled): (r: Reply)
    ensures r.Json? <==> s.Resolved?
    ensures r.Json? ==> r.success == s.response.body.success && r.message == s.response.body.message
  {
    match s
    case Resolved(r) => Json(r.body.success, r.body.message)
    case Rejected(_) => Threw
  }

  /** End to end over the form, the server pipeline and the reply: a request the
      form posts never meets the server's missing-resume or mobile rule; the
      form shows success exactly when the server fully succeeded, shows the
      206 message when the e-mail failed, and falls back to the generic message
      for a field-validation error list or a failed upload. */
  lemma SubmitEndToEnd(s: FormState, syn: Syntax, cache: Option<AuthorApply.Client>, w: AuthorApply.World)
    requires HandleSubmit(s).request.Some?
    ensures var sub := HandleSubmit(s);
            var run := AuthorApply.Submit(syn, cache, w, sub.request.value);
            var t := Settle(sub.state, Receive(AuthorApply.Respond(run.outcome)));
            && !run.outcome.ResumeMissing?
            && (run.outcome.Invalid? ==> !HasIssue(run.outcome.issues, "mobile") && t.error == FallbackMessage)
            && (t.success <==> run.outcome.Submitted?)
            && (t.success ==> t.name == [] && t.resume.None? && !t.agreeTerms && t.error == [])
            && (run.outcome.NotNotified? ==> t.error == AuthorApply.NotNotifiedMessage)
            && (run.outcome.UploadFailed? ==> t.error == FallbackMessage)
  {
  }
}

=== FILE: author_apply.dfy ===
/**
 * The author-application intake endpoint (`POST /api/author/apply`).
 *
 * The handler is a short-circuiting pipeline: resume presence, field validation,
 * database connection, upload of the resume into a GridFS write stream, and an
 * e-mail notification sent from the stream's `close` handler. The database,
 * the write stream, the mail transport and the clock are outside the model:
 * what they do is read from a `World` of oracle results, and what the handler
 * asks of them is recorded as a trace of `Effect`s.
 */
module AuthorApply {
  import opened Wrappers
  import opened JsText
  import opened Forms

  const NameMessage := "Name must be at least 2 characters"
  const EmailMessage := "Invalid email address"
  const MobileMessage := "Mobile number must be 10 digits"
  const BioMessage := "Bio must be at least 10 characters"

  const ResumeRequiredMessage := "Resume file is required"
  const UploadFailedMessage := "Failed to upload resume"
  const SubmittedMessage := "Application submitted successfully"
  const NotNotifiedMessage := "Application received but failed to send notification"
  /** The message V8 gives the TypeError of calling `arrayBuffer` on a string. */
  const NotAFileMessage := "resume.arrayBuffer is not a function"

  const DefaultRecipient := "newscoope.in@gmail.com"
  const MailSubject := "New Author Application"
  const FilesPrefix := "/files/"

  /** The five multipart entries the handler reads. */
  datatype Application = Application(name: FormValue, email: FormValue, mobile: FormValue, bio: FormValue, resume: FormValue)

  /** The four text fields once `ApplicationSchema` has accepted them. */
  datatype Fields = Fields(name: string, email: string, mobile: string, bio: string)

  predicate LongEnoughName(s: string) { |s| >= 2 }
  predicate LongEnoughBio(s: string) { |s| >= 10 }

  predicate NameOk(v: FormValue) { v.Str? && LongEnoughName(v.text) }
  predicate EmailOk(syn: Syntax, v: FormValue) { v.Str? && syn.isEmail(v.text) }
  predicate MobileOk(v: FormValue) { v.Str? && MatchesMobilePattern(v.text) }
  predicate BioOk(v: FormValue) { v.Str? && LongEnoughBio(v.text) }

  /** Every rule of `ApplicationSchema` holds. */
  predicate FieldsValid(syn: Syntax, a: Application) {
    NameOk(a.name) && EmailOk(syn, a.email) && MobileOk(a.mobile) && BioOk(a.bio)
  }

  /** `ApplicationSchema.safeParse({name, email, mobile, bio})`: the parsed fields,
      or the error list with one issue for each failing field, in schema order. */
  function Validate(syn: Syntax, a: Application): (r: Result<Fields, seq<Issue>>)
    ensures r.Ok? <==> FieldsValid(syn, a)
    ensures r.Ok? ==> r.value == Fields(a.name.text, a.email.text, a.mobile.text, a.bio.text)
    ensures r.Err? ==> r.error != []
    ensures r.Err? ==> |r.error| <= 4
    ensures r.Err? ==> (HasIssue(r.error, "name") <==> !NameOk(a.name))
    ensures r.Err? ==> (HasIssue(r.error, "email") <==> !EmailOk(syn, a.email))
    ensures r.Err? ==> (HasIssue(r.error, "mobile") <==> !MobileOk(a.mobile))
    ensures r.Err? ==> (HasIssue(r.error, "bio") <==> !BioOk(a.bio))
    ensures r.Err? ==> (RuleIssue("name", NameMessage) in r.error <==> a.name.Str? && |a.name.text| < 2)
    ensures r.Err? ==> (RuleIssue("email", EmailMessage) in r.error <==> a.email.Str? && !syn.isEmail(a.email.text))
    ensures r.Err? ==> (RuleIssue("mobile", MobileMessage) in r.error <==> a.mobile.Str? && !MatchesMobilePattern(a.mobile.text))
    ensures r.Err? ==> (RuleIssue("bio", BioMessage) in r.error <==> a.bio.Str? && |a.bio.text| < 10)
  {
    var n := CheckString("name", a.name, LongEnoughName, NameMessage);
    var e := CheckString("email", a.email, syn.isEmail, EmailMessage);
    var m := CheckString("mobile", a.mobile, MatchesMobilePattern, MobileMessage);
    var b := CheckString("bio", a.bio, LongEnoughBio, BioMessage);
    var issues := n + e + m + b;
    IssuesReportFields(n, e, m, b);
    if issues == [] then
      Ok(Fields(a.name.text, a.email.text, a.mobile.text, a.bio.text))
    else
      Err(issues)
  }

  lemma IssuesReportFields(n: seq<Issue>, e: seq<Issue>, m: seq<Issue>, b: seq<Issue>)
    requires forall i :: 0 <= i < |n| ==> n[i].path == "name"
    requires forall i :: 0 <= i < |e| ==> e[i].path == "email"
    requires forall i :: 0 <= i < |m| ==> m[i].path == "mobile"
    requires forall i :: 0 <= i < |b| ==> b[i].path == "bio"
    ensures HasIssue(n + e + m + b, "name") <==> n != []
    ensures HasIssue(n + e + m + b, "email") <==> e != []
    ensures HasIssue(n + e + m + b, "mobile") <==> m != []
    ensures HasIssue(n + e + m + b, "bio") <==> b != []
    ensures RuleIssue("name", NameMessage) in n + e + m + b <==> RuleIssue("name", NameMessage) in n
    ensures RuleIssue("email", EmailMessage) in n + e + m + b <==> RuleIssue("email", EmailMessage) in e
    ensures RuleIssue("mobile", MobileMessage) in n + e + m + b <==> RuleIssue("mobile", MobileMessage) in m
    ensures RuleIssue("bio", BioMessage) in n + e + m + b <==> RuleIssue("bio", BioMessage) in b
  {
    HasIssueAppend(n, e, "name"); HasIssueAppend(n + e, m, "name"); HasIssueAppend(n + e + m, b, "name");
    HasIssueAppend(n, e, "email"); HasIssueAppend(n + e, m, "email"); HasIssueAppend(n + e + m, b, "email");
    HasIssueAppend(n, e, "mobile"); HasIssueAppend(n + e, m, "mobile"); HasIssueAppend(n + e + m, b, "mobile");
    HasIssueAppend(n, e, "bio"); HasIssueAppend(n + e, m, "bio"); HasIssueAppend(n + e + m, b, "bio");
    if n != [] { assert n[0].path == "name"; }
    if e != [] { assert e[0].path == "email"; }
    if m != [] { assert m[0].path == "mobile"; }
    if b != [] { assert b[0].path == "bio"; }
  }

  /** A five-digit mobile number stops the request at validation, with an issue
      naming the field and no connection, upload or mail. */
  lemma ShortMobileRejected(syn: Syntax, cache: Option<Client>, w: World, a: Application)
    requires Truthy(a.resume) && a.mobile == Str("12345")
    ensures var run := Submit(syn, cache, w, a);
            run.outcome.Invalid? && HasIssue(run.outcome.issues, "mobile") && run.effects == []
  {
  }

  // ----- connect-once database client -----

  /** The module-level `MongoClient`: an identity and whether it is connected. */
  datatype Client = Client(id: nat, connected: bool)

  /** The client `connectMongo` leaves behind, and whether it had to make it. */
  datatype Connection = Connection(client: Client, created: bool)

  /** `connectMongo`: a new client (numbered `freshId`, connected exactly when
      `connects`) replaces the cached one only when none exists or it is
      disconnected; otherwise the cached client is reused untouched. */
  function ConnectMongo(cached: Option<Client>, freshId: nat, connects: bool): (c: Connection)
    ensures c.created <==> cached.None? || !cached.value.connected
    ensures !c.created ==> c.client == cached.value && c.client.connected
    ensures c.created ==> c.client.id == freshId && (c.client.connected <==> connects)
  {
    if cached.None? || !cached.value.connected then Connection(Client(freshId, connects), true)
    else Connection(cached.value, false)
  }

  /** Once a connection succeeds, later calls reuse that client whatever the
      environment would do; a failed attempt is replaced on the next call. */
  lemma ConnectOnce(cached: Option<Client>, id1: nat, ok1: bool, id2: nat, ok2: bool)
    ensures var c1 := ConnectMongo(cached, id1, ok1);
            var c2 := ConnectMongo(Some(c1.client), id2, ok2);
            (c1.client.connected ==> !c2.created && c2.client == c1.client)
            && (!c1.client.connected ==> c2.created && c2.client == Client(id2, ok2))
  {
  }

  // ----- the outside world and what the handler asks of it -----

  /** The first event the GridFS write stream emits. */
  datatype UploadEvent = Closed(fileId: string) | StreamError

  datatype MailResult = Delivered | MailError

  /** Oracle results for one request, plus the configured recipient. */
  datatype World = World(
    freshClientId: nat,           // identity of a client created by this request
    connects: bool,               // whether `client.connect()` succeeds
    connectError: string,         // the message it throws otherwise
    nowMs: nat,                   // `Date.now()`
    submissionDate: nat,          // `new Date()` for the metadata
    upload: UploadEvent,
    mail: MailResult,
    notificationEmail: Option<string>)  // `process.env.NOTIFICATION_EMAIL`

  /** The file document handed to `gfs.createWriteStream`. */
  datatype StoredFile = StoredFile(filename: string, contentType: string, user: string, submissionDate: nat, content: seq<Byte>)

  /** The notification e-mail; its HTML lists the four fields and links the resume. */
  datatype Mail = Mail(to: string, subject: string, name: string, email: string, mobile: string, bio: string, resumeLink: string)

  datatype Effect =
    | OpenClient(client: Client)   // `new MongoClient(...)` and `connect()`
    | WriteBlob(file: StoredFile)  // write stream created and the resume piped into it
    | BlobClosed(fileId: string)   // the stream's `close` event
    | SendMail(mail: Mail)         // `transporter.sendMail` attempted

  /** The applicant data echoed on full success; the bio is not part of it. */
  datatype Applicant = Applicant(name: string, email: string, mobile: string, resumePath: string)

  datatype Outcome =
    | ResumeMissing              // 400, nothing else done
    | Invalid(issues: seq<Issue>)  // 400 with zod's error list
    | Crashed(message: string)   // caught by the outer `catch`: 500
    | UploadFailed               // stream error: the promise is rejected
    | Submitted(data: Applicant) // 200
    | NotNotified                // 206: stored, e-mail failed

  datatype Step = Step(outcome: Outcome, effects: seq<Effect>)

  /** A whole request: its outcome, its effects in order, and the cached client afterwards. */
  datatype Run = Run(outcome: Outcome, effects: seq<Effect>, cache: Option<Client>)

  /** A database client was created and connected during the request. */
  predicate ClientOpened(effects: seq<Effect>) {
    exists i :: 0 <= i < |effects| && effects[i].OpenClient?
  }

  /** The resume was piped into a GridFS write stream. */
  predicate ResumeWritten(effects: seq<Effect>) {
    exists i :: 0 <= i < |effects| && effects[i].WriteBlob?
  }

  predicate MailAttempted(effects: seq<Effect>) {
    exists i :: 0 <= i < |effects| && effects[i].SendMail?
  }

  /** Every mail attempt follows the close of an upload and links that upload's file. */
  predicate MailOnlyAfterClose(effects: seq<Effect>) {
    forall i :: 0 <= i < |effects| && effects[i].SendMail? ==>
      exists j :: 0 <= j < i && effects[j].BlobClosed? && effects[i].mail.resumeLink == FilesPrefix + effects[j].fileId
  }

  /** `${Date.now()}-${resume.name}`: the submission time and the original name,
      both recoverable from the stored name. */
  function StoredFilename(nowMs: nat, original: string): (f: string)
    ensures ParseStoredFilename(f) == Some(StoredName(nowMs, original))
    ensures |f| > |original| && f[|f| - |original|..] == original
  {
    var f := DecimalString(nowMs) + "-" + original;
    StoredFilenameParses(nowMs, original);
    f
  }

  datatype StoredName = StoredName(stamp: nat, original: string)

  function LeadingDigits(s: string): (k: nat)
    ensures k <= |s| && AllDigits(s[..k])
    ensures k < |s| ==> !IsDigit(s[k])
  {
    if s != [] && IsDigit(s[0]) then
      var k := 1 + LeadingDigits(s[1..]);
      assert s[..k] == [s[0]] + s[1..][..k - 1];
      k
    else 0
  }

  /** Reads a stored filename back into the submission time and original name. */
  function ParseStoredFilename(f: string): Option<StoredName> {
    var k := LeadingDigits(f);
    if 0 < k < |f| && f[k] == '-' then Some(StoredName(DecimalValue(f[..k]), f[k + 1..])) else None
  }

  lemma {:induction false} LeadingDigitsOf(d: string, rest: string)
    requires AllDigits(d)
    requires rest == [] || !IsDigit(rest[0])
    ensures LeadingDigits(d + rest) == |d|
    decreases |d|
  {
    if d == [] {
      assert d + rest == rest;
    } else {
      assert (d + rest)[1..] == d[1..] + rest;
      LeadingDigitsOf(d[1..], rest);
    }
  }

  /** The generated filename keeps both the timestamp and the original name
      recoverable, whatever the original name contains. */
  lemma StoredFilenameParses(nowMs: nat, original: string)
    ensures ParseStoredFilename(DecimalString(nowMs) + "-" + original) == Some(StoredName(nowMs, original))
  {
    var d := DecimalString(nowMs);
    var f := DecimalString(nowMs) + "-" + original;
    assert f == d + ("-" + original);
    LeadingDigitsOf(d, "-" + original);
    assert f[..|d|] == d;
    assert f[|d| + 1..] == original;
    DecimalRoundTrip(nowMs);
  }

  /** `process.env.NOTIFICATION_EMAIL || 'newscoope.in@gmail.com'`. */
  function Recipient(configured: Option<string>): (to: string)
    ensures to != []
    ensures configured.Some? && configured.value != [] ==> to == configured.value
    ensures !(configured.Some? && configured.value != []) ==> to == DefaultRecipient
  {
    if configured.Some? && configured.value != [] then configured.value else DefaultRecipient
  }

  function NotificationMail(configured: Option<string>, f: Fields, fileId: string): Mail {
    Mail(Recipient(configured), MailSubject, f.name, f.email, f.mobile, f.bio, FilesPrefix + fileId)
  }

  /** The write stream's `close` handler: the mail is attempted with a link to the
      stored file; its delivery decides between full (200) and partial (206) success. */
  function OnClose(w: World, f: Fields, fileId: string): (s: Step)
    ensures |s.effects| == 2 && s.effects[0] == BlobClosed(fileId) && s.effects[1].SendMail?
    ensures s.effects[1].mail.resumeLink == FilesPrefix + fileId
    ensures s.effects[1].mail.to == Recipient(w.notificationEmail) && s.effects[1].mail.subject == MailSubject
    ensures s.effects[1].mail.name == f.name && s.effects[1].mail.email == f.email
    ensures s.effects[1].mail.mobile == f.mobile && s.effects[1].mail.bio == f.bio
    ensures s.outcome.Submitted? <==> w.mail.Delivered?
    ensures s.outcome.Submitted? ==> s.outcome.data == Applicant(f.name, f.email, f.mobile, FilesPrefix + fileId)
    ensures !s.outcome.Submitted? ==> s.outcome == NotNotified
  {
    var mail := NotificationMail(w.notificationEmail, f, fileId);
    var outcome := match w.mail
      case Delivered => Submitted(Applicant(f.name, f.email, f.mobile, FilesPrefix + fileId))
      case MailError => NotNotified;
    Step(outcome, [BlobClosed(fileId), SendMail(mail)])
  }

  /** The upload: the file document is written, then the stream either errors
      (no mail) or closes and the `close` handler runs. */
  function Upload(w: World, f: Fields, resume: File): (s: Step)
    ensures |s.effects| >= 1 && s.effects[0].WriteBlob?
    ensures s.effects[0].file == StoredFile(StoredFilename(w.nowMs, resume.name), resume.mimeType, f.name, w.submissionDate, resume.content)
    ensures s.outcome == UploadFailed <==> w.upload.StreamError?
    ensures MailAttempted(s.effects) <==> w.upload.Closed?
    ensures MailOnlyAfterClose(s.effects)
    ensures !ClientOpened(s.effects)
    ensures w.upload.StreamError? ==> |s.effects| == 1
    ensures w.upload.Closed? ==>
      s.effects[1..] == OnClose(w, f, w.upload.fileId).effects && s.outcome == OnClose(w, f, w.upload.fileId).outcome
  {
    var file := StoredFile(StoredFilename(w.nowMs, resume.name), resume.mimeType, f.name, w.submissionDate, resume.content);
    match w.upload
    case StreamError =>
      assert !MailAttempted([WriteBlob(file)]);
      Step(UploadFailed, [WriteBlob(file)])
    case Closed(id) =>
      var closed := OnClose(w, f, id);
      var effects := [WriteBlob(file)] + closed.effects;
      assert effects[2].SendMail? && effects[1] == BlobClosed(id);
      Step(closed.outcome, effects)
  }

  /** The whole handler. */
  function Submit(syn: Syntax, cache: Option<Client>, w: World, a: Application): (run: Run)
    ensures run.outcome.ResumeMissing? <==> !Truthy(a.resume)
    ensures run.outcome.Invalid? <==> Truthy(a.resume) && !FieldsValid(syn, a)
    ensures run.outcome.Invalid? ==> run.outcome.issues == Validate(syn, a).error
    ensures run.outcome.ResumeMissing? || run.outcome.Invalid? ==> run.effects == [] && run.cache == cache
    ensures MailOnlyAfterClose(run.effects)
    ensures run.outcome.UploadFailed? || run.outcome.Crashed? ==> !MailAttempted(run.effects)
    ensures run.outcome.Submitted? || run.outcome.NotNotified? ==>
      FieldsValid(syn, a) && a.resume.Blob? && w.upload.Closed? && MailAttempted(run.effects)
    ensures run.outcome.Submitted? <==>
      Truthy(a.resume) && FieldsValid(syn, a) && a.resume.Blob? && w.upload.Closed? && w.mail.Delivered?
      && ((cache.Some? && cache.value.connected) || w.connects)
    ensures run.outcome.Crashed? <==>
      Truthy(a.resume) && FieldsValid(syn, a)
      && (!((cache.Some? && cache.value.connected) || w.connects) || !a.resume.Blob?)
    ensures run.outcome.UploadFailed? <==>
      Truthy(a.resume) && FieldsValid(syn, a) && a.resume.Blob? && w.upload.StreamError?
      && ((cache.Some? && cache.value.connected) || w.connects)
    ensures run.outcome.NotNotified? <==>
      Truthy(a.resume) && FieldsValid(syn, a) && a.resume.Blob? && w.upload.Closed? && w.mail.MailError?
      && ((cache.Some? && cache.value.connected) || w.connects)
    ensures run.outcome.Crashed? && !((cache.Some? && cache.value.connected) || w.connects) ==>
      run.outcome.message == w.connectError
    ensures run.outcome.Crashed? && ((cache.Some? && cache.value.connected) || w.connects) ==>
      run.outcome.message == NotAFileMessage
    ensures run.outcome.Submitted? ==>
      run.outcome.data == Applicant(a.name.text, a.email.text, a.mobile.text, FilesPrefix + w.upload.fileId)
    ensures Truthy(a.resume) && FieldsValid(syn, a) ==>
      run.cache == Some(ConnectMongo(cache, w.freshClientId, w.connects).client)
    ensures ClientOpened(run.effects) <==>
      Truthy(a.resume) && FieldsValid(syn, a) && ConnectMongo(cache, w.freshClientId, w.connects).created
    ensures ClientOpened(run.effects) ==>
      run.effects[0] == OpenClient(ConnectMongo(cache, w.freshClientId, w.connects).client)
    ensures ResumeWritten(run.effects) <==> run.outcome.UploadFailed? || run.outcome.Submitted? || run.outcome.NotNotified?
    ensures ResumeWritten(run.effects) ==>
      WriteBlob(StoredFile(StoredFilename(w.nowMs, a.resume.file.name), a.resume.file.mimeType,
                           a.name.text, w.submissionDate, a.resume.file.content)) in run.effects
  {
    if !Truthy(a.resume) then Run(ResumeMissing, [], cache)
    else
      match Validate(syn, a)
      case Err(issues) => Run(Invalid(issues), [], cache)
      case Ok(f) =>
        var c := ConnectMongo(cache, w.freshClientId, w.connects);
        var connecting := ConnectEffects(c);
        if !c.client.connected then Run(Crashed(w.connectError), connecting, Some(c.client))
        else if !a.resume.Blob? then Run(Crashed(NotAFileMessage), connecting, Some(c.client))
        else
          var s := Upload(w, f, a.resume.file);
          AfterOpenPreservesOrder(connecting, s.effects);
          OpenPrefixTrace(connecting, s.effects);
          Run(s.outcome, connecting + s.effects, Some(c.client))
  }

  /** The trace of `connectMongo`: the new client's opening, if it made one. */
  function ConnectEffects(c: Connection): (e: seq<Effect>)
    ensures forall i :: 0 <= i < |e| ==> e[i] == OpenClient(c.client)
    ensures ClientOpened(e) <==> c.created
    ensures c.created ==> e[0] == OpenClient(c.client)
    ensures !ResumeWritten(e) && !MailAttempted(e) && MailOnlyAfterClose(e)
  {
    if c.created then
      var e := [OpenClient(c.client)];
      assert e[0].OpenClient?;
      e
    else []
  }

  /** What the connection step adds in front of the upload's trace: a client is
      opened exactly when the prefix is non-empty, and the resume write is kept. */
  lemma OpenPrefixTrace(connecting: seq<Effect>, effects: seq<Effect>)
    requires forall i :: 0 <= i < |connecting| ==> connecting[i].OpenClient?
    requires !ClientOpened(effects)
    requires |effects| >= 1 && effects[0].WriteBlob?
    ensures ClientOpened(connecting + effects) <==> connecting != []
    ensures ResumeWritten(connecting + effects)
    ensures effects[0] in connecting + effects
  {
    var all := connecting + effects;
    assert all[|connecting|] == effects[0];
    if connecting != [] { assert all[0] == connecting[0]; }
    if connecting == [] { assert all == effects; }
  }

  /** When the upload closes, the trace holds that file's close and the
      notification `OnClose` builds for the validated fields and that file. */
  lemma SubmitNotifies(syn: Syntax, cache: Option<Client>, w: World, a: Application)
    ensures var run := Submit(syn, cache, w, a);
            run.outcome.Submitted? || run.outcome.NotNotified? ==>
              && BlobClosed(w.upload.fileId) in run.effects
              && SendMail(NotificationMail(w.notificationEmail, Validate(syn, a).value, w.upload.fileId)) in run.effects
  {
    var run := Submit(syn, cache, w, a);
    if run.outcome.Submitted? || run.outcome.NotNotified? {
      var f := Validate(syn, a).value;
      var c := ConnectMongo(cache, w.freshClientId, w.connects);
      var connecting := ConnectEffects(c);
      var s := Upload(w, f, a.resume.file);
      assert run.effects == connecting + s.effects;
      var closed := OnClose(w, f, w.upload.fileId);
      assert s.effects[1] == closed.effects[0] && s.effects[2] == closed.effects[1];
      assert run.effects[|connecting| + 1] == BlobClosed(w.upload.fileId);
      assert run.effects[|connecting| + 2] == SendMail(NotificationMail(w.notificationEmail, f, w.upload.fileId));
    }
  }

  /** `connectMongo` across requests: once a request leaves a connected client
      cached, the next request opens no client and leaves the same one cached. */
  lemma HandlerConnectsOnce(syn: Syntax, cache: Option<Client>, w1: World, a1: Application, w2: World, a2: Application)
    ensures var r1 := Submit(syn, cache, w1, a1);
            r1.cache.Some? && r1.cache.value.connected ==>
              var r2 := Submit(syn, r1.cache, w2, a2);
              !ClientOpened(r2.effects) && r2.cache == r1.cache
  {
  }

  /** Connection effects in front of a trace neither break nor create the
      ordering of mails after closes, nor change whether a mail was attempted. */
  lemma AfterOpenPreservesOrder(connecting: seq<Effect>, effects: seq<Effect>)
    requires forall i :: 0 <= i < |connecting| ==> connecting[i].OpenClient?
    requires MailOnlyAfterClose(effects)
    ensures MailOnlyAfterClose(connecting + effects)
    ensures MailAttempted(connecting + effects) <==> MailAttempted(effects)
  {
    OpenPrefixKeepsOrder(connecting, effects);
    OpenPrefixKeepsAttempt(connecting, effects);
  }

  lemma OpenPrefixKeepsOrder(connecting: seq<Effect>, effects: seq<Effect>)
    requires forall i :: 0 <= i < |connecting| ==> connecting[i].OpenClient?
    requires MailOnlyAfterClose(effects)
    ensures MailOnlyAfterClose(connecting + effects)
  {
    var all := connecting + effects;
    forall i | 0 <= i < |all| && all[i].SendMail?
      ensures exists j :: 0 <= j < i && all[j].BlobClosed? && all[i].mail.resumeLink == FilesPrefix + all[j].fileId
    {
      assert i >= |connecting|;
      assert effects[i - |connecting|] == all[i];
      var j :| 0 <= j < i - |connecting| && effects[j].BlobClosed? && effects[i - |connecting|].mail.resumeLink == FilesPrefix + effects[j].fileId;
      assert all[j + |connecting|] == effects[j];
    }
  }

  lemma OpenPrefixKeepsAttempt(connecting: seq<Effect>, effects: seq<Effect>)
    requires forall i :: 0 <= i < |connecting| ==> connecting[i].OpenClient?
    ensures MailAttempted(connecting + effects) <==> MailAttempted(effects)
  {
    var all := connecting + effects;
    if MailAttempted(effects) {
      var i :| 0 <= i < |effects| && effects[i].SendMail?;
      assert all[i + |connecting|] == effects[i];
    }
    if MailAttempted(all) {
      var i :| 0 <= i < |all| && all[i].SendMail?;
      assert effects[i - |connecting|] == all[i];
    }
  }

  // ----- responses -----

  /** The JSON body `NextResponse.json` sends. */
  datatype Body = Body(success: bool, message: Option<string>, errors: seq<Issue>, data: Option<Applicant>)

  datatype Response = Response(status: nat, body: Body)

  /** How the handler's promise settles: resolved with a response, or rejected
      with one (the upload-error path, whose rejection escapes the `catch`). */
  datatype Settled = Resolved(response: Response) | Rejected(response: Response)

  /** The response each outcome produces. Every body carries its success flag;
      only full success reports `success: true`, and full success (200) and
      stored-but-not-notified (206) are told apart by status. */
  function Respond(o: Outcome): (s: Settled)
    ensures s.response.body.success <==> o.Submitted?
    ensures s.Rejected? <==> o.UploadFailed?
    ensures s.response.status == 200 <==> o.Submitted?
    ensures s.response.status == 206 <==> o.NotNotified?
    ensures s.response.status == 400 <==> o.ResumeMissing? || o.Invalid?
    ensures s.response.status == 500 <==> o.Crashed? || o.UploadFailed?
    ensures s.response.body.data.Some? <==> o.Submitted?
    ensures o.ResumeMissing? ==> s.response.body.message == Some(ResumeRequiredMessage)
    ensures o.Invalid? ==> s.response.body.errors == o.issues && s.response.body.message.None?
    ensures o.Crashed? ==> s.response.body.message == Some(o.message)
    ensures o.UploadFailed? ==> s.response.body.message == Some(UploadFailedMessage)
    ensures o.Submitted? ==> s.response.body.data == Some(o.data) && s.response.body.message == Some(SubmittedMessage)
    ensures o.NotNotified? ==> s.response.body.message == Some(NotNotifiedMessage)
  {
    match o
    case ResumeMissing => Resolved(Response(400, Body(false, Some(ResumeRequiredMessage), [], None)))
    case Invalid(issues) => Resolved(Response(400, Body(false, None, issues, None)))
    case Crashed(message) => Resolved(Response(500, Body(false, Some(message), [], None)))
    case UploadFailed => Rejected(Response(500, Body(false, Some(UploadFailedMessage), [], None)))
    case Submitted(data) => Resolved(Response(200, Body(true, Some(SubmittedMessage), [], Some(data))))
    case NotNotified => Resolved(Response(206, Body(false, Some(NotNotifiedMessage), [], None)))
  }

  /** End to end: a complete, well-formed application with a working store and
      mailer gets 200 and has its fields and resume path echoed back, while a
      failing mailer gives 206 with the stored file kept (its write is in the trace). */
  lemma HappyPathAndDegradedPath(syn: Syntax, cache: Option<Client>, w: World, a: Application, file: File, id: string)
    requires a.resume == Blob(file) && FieldsValid(syn, a)
    requires (cache.Some? && cache.value.connected) || w.connects
    requires w.upload == Closed(id)
    ensures var run := Submit(syn, cache, w, a);
            var reply := Respond(run.outcome).response;
            (w.mail.Delivered? ==>
               reply.status == 200
               && reply.body.data == Some(Applicant(a.name.text, a.email.text, a.mobile.text, FilesPrefix + id)))
            && (w.mail.MailError? ==> reply.status == 206 && reply.body.message == Some(NotNotifiedMessage))
            && WriteBlob(StoredFile(StoredFilename(w.nowMs, file.name), file.mimeType, a.name.text, w.submissionDate, file.content)) in run.effects
  {
  }
}

=== FILE: forms.dfy ===
/**
 * Values as they come out of `request.formData()` and the part of zod's string
 * schema behaviour the routes use.
 *
 * zod's `email()` and `url()` checks are library regular expressions outside
 * this model; they are carried as the uninterpreted predicates of `Syntax`.
 */
module Forms {

  type Byte = b: int | 0 <= b < 256

  /** A browser `File`: its original name, MIME type and bytes. */
  datatype File = File(name: string, mimeType: string, content: seq<Byte>)

  /** What `formData.get(key)` returns: `null` when the key is absent, otherwise
      a string or a `File`. */
  datatype FormValue = Null | Str(text: string) | Blob(file: File)

  /** JavaScript truthiness: `null` and `""` are falsy, every `File` object is truthy. */
  predicate Truthy(v: FormValue) {
    match v
    case Null => false
    case Str(t) => t != []
    case Blob(_) => true
  }

  /** `v || null`. */
  function OrNull(v: FormValue): (r: FormValue)
    ensures r.Null? <==> !Truthy(v)
    ensures !r.Null? ==> r == v
  {
    if Truthy(v) then v else Null
  }

  /** The syntax checks zod performs with library patterns. */
  datatype Syntax = Syntax(isEmail: string -> bool, isUrl: string -> bool)

  /** The one fact about the library patterns the model relies on: the empty
      string is neither an e-mail address nor a URL. */
  predicate RejectsEmpty(syn: Syntax) {
    !syn.isEmail([]) && !syn.isUrl([])
  }

  /** One entry of a zod error list: the field it concerns and what went wrong.
      A wrong JavaScript type is reported with the type zod received
      ("null" or "object"); a failed check carries the schema's own message. */
  datatype Issue =
    | TypeIssue(path: string, received: string)
    | RuleIssue(path: string, message: string)

  /** `typeof`-style name zod reports for a value that is not a string. */
  function ReceivedType(v: FormValue): string {
    match v
    case Null => "null"
    case Str(_) => "string"
    case Blob(_) => "object"
  }

  predicate HasIssue(issues: seq<Issue>, path: string) {
    exists i :: 0 <= i < |issues| && issues[i].path == path
  }

  /** `z.string().<check>(message)` applied to one field: one issue at most,
      none exactly when the value is a string that passes the check. */
  function CheckString(path: string, v: FormValue, check: string -> bool, message: string): (issues: seq<Issue>)
    ensures |issues| <= 1
    ensures issues == [] <==> v.Str? && check(v.text)
    ensures forall i :: 0 <= i < |issues| ==> issues[i].path == path
    ensures !v.Str? ==> issues == [TypeIssue(path, ReceivedType(v))]
    ensures v.Str? && !check(v.text) ==> issues == [RuleIssue(path, message)]
  {
    match v
    case Str(t) => if check(t) then [] else [RuleIssue(path, message)]
    case _ => [TypeIssue(path, ReceivedType(v))]
  }

  /** `z.string().<check>(message).optional().nullable()` on a value that is never
      `undefined`: `null` passes, a string must pass the check. */
  function CheckNullableString(path: string, v: FormValue, check: string -> bool, message: string): (issues: seq<Issue>)
    ensures |issues| <= 1
    ensures issues == [] <==> v.Null? || (v.Str? && check(v.text))
    ensures forall i :: 0 <= i < |issues| ==> issues[i].path == path
    ensures v.Blob? ==> issues == [TypeIssue(path, ReceivedType(v))]
    ensures v.Str? && !check(v.text) ==> issues == [RuleIssue(path, message)]
  {
    if v.Null? then [] else CheckString(path, v, check, message)
  }

  lemma HasIssueAppend(a: seq<Issue>, b: seq<Issue>, path: string)
    ensures HasIssue(a + b, path) <==> HasIssue(a, path) || HasIssue(b, path)
  {
    if HasIssue(b, path) {
      var i :| 0 <= i < |b| && b[i].path == path;
      assert (a + b)[|a| + i] == b[i];
    }
    if HasIssue(a, path) {
      var i :| 0 <= i < |a| && a[i].path == path;
      assert (a + b)[i] == a[i];
    }
    if HasIssue(a + b, path) {
      var i :| 0 <= i < |a + b| && (a + b)[i].path == path;
      if i < |a| { assert a[i] == (a + b)[i]; } else { assert b[i - |a|] == (a + b)[i]; }
    }
  }
}

=== FILE: js_text.dfy ===
/**
 * The JavaScript string behaviour the core relies on: what `String.prototype.trim`
 * removes, the decimal rendering of a non-negative number in a template literal,
 * and the mobile-number pattern `/^[0-9]{10}$/`.
 *
 * Strings are sequences of `char`. JavaScript counts `length` in UTF-16 code
 * units; the two agree on every character of the Basic Multilingual Plane.
 */
module JsText {

  /** ECMAScript WhiteSpace and LineTerminator code points: exactly what `trim` strips. */
  predicate IsWhitespace(c: char) {
    || c == '\t' || c == '\n' || c == '\U{000B}' || c == '\U{000C}' || c == '\r'
    || c == ' ' || c == '\U{00A0}' || c == '\U{1680}'
    || ('\U{2000}' <= c <= '\U{200A}')
    || c == '\U{2028}' || c == '\U{2029}' || c == '\U{202F}' || c == '\U{205F}'
    || c == '\U{3000}' || c == '\U{FEFF}'
  }

  predicate AllWhitespace(s: string) {
    forall i :: 0 <= i < |s| ==> IsWhitespace(s[i])
  }

  /** Neither end of `s` is whitespace (vacuous for the empty string). */
  predicate Unpadded(s: string) {
    s == [] || (!IsWhitespace(s[0]) && !IsWhitespace(s[|s| - 1]))
  }

  /** `s` is `r` with the whitespace run `s[..k]` in front and a whitespace run behind. */
  predicate FramedBy(s: string, k: int, r: string) {
    && 0 <= k <= |s| - |r|
    && s[k..k + |r|] == r
    && AllWhitespace(s[..k]) && AllWhitespace(s[k + |r|..])
    && Unpadded(r)
  }

  /** `r` is what is left of `s` once whitespace runs at both ends are cut off:
      the declarative reading of `s.trim()`. */
  ghost predicate IsTrimOf(s: string, r: string) {
    exists k :: FramedBy(s, k, r)
  }

  /** Leading whitespace removed. */
  function TrimStart(s: string): (r: string)
    ensures |r| <= |s| && r == s[|s| - |r|..]
    ensures AllWhitespace(s[..|s| - |r|])
    ensures r == [] || !IsWhitespace(r[0])
  {
    if s != [] && IsWhitespace(s[0]) then
      var r := TrimStart(s[1..]);
      SkipLeadingWhitespace(s, r);
      r
    else s
  }

  /** The step of `TrimStart`: a suffix of `s[1..]` behind whitespace is a
      suffix of `s` behind whitespace when `s[0]` is whitespace too. */
  lemma SkipLeadingWhitespace(s: string, r: string)
    requires s != [] && IsWhitespace(s[0])
    requires |r| <= |s| - 1 && r == s[1..][|s| - 1 - |r|..]
    requires AllWhitespace(s[1..][..|s| - 1 - |r|])
    ensures r == s[|s| - |r|..]
    ensures AllWhitespace(s[..|s| - |r|])
  {
    assert s[..|s| - |r|] == [s[0]] + s[1..][..|s| - 1 - |r|];
  }

  /** Trailing whitespace removed. */
  function TrimEnd(s: string): (r: string)
    ensures |r| <= |s| && r == s[..|r|]
    ensures AllWhitespace(s[|r|..])
    ensures r == [] || !IsWhitespace(r[|r| - 1])
  {
    if s != [] && IsWhitespace(s[|s| - 1]) then
      var r := TrimEnd(s[..|s| - 1]);
      SkipTrailingWhitespace(s, r);
      r
    else s
  }

  /** The step of `TrimEnd`, mirroring `SkipLeadingWhitespace`. */
  lemma SkipTrailingWhitespace(s: string, r: string)
    requires s != [] && IsWhitespace(s[|s| - 1])
    requires |r| <= |s| - 1 && r == s[..|s| - 1][..|r|]
    requires AllWhitespace(s[..|s| - 1][|r|..])
    ensures r == s[..|r|]
    ensures AllWhitespace(s[|r|..])
  {
    assert s[|r|..] == s[..|s| - 1][|r|..] + [s[|s| - 1]];
  }

  /** `s.trim()`. */
  function Trim(s: string): (r: string)
    ensures IsTrimOf(s, r)
  {
    var t := TrimStart(s);
    var r := TrimEnd(t);
    TrimFrames(s, t, r);
    r
  }

  lemma TrimFrames(s: string, t: string, r: string)
    requires t == TrimStart(s) && r == TrimEnd(t)
    ensures IsTrimOf(s, r)
  {
    var k := |s| - |t|;
    PrefixOfSuffix(s, k, t, r);
    TrimEndKeepsStart(t, r);
    assert FramedBy(s, k, r);
  }

  /** Where a prefix `r` of the suffix `t == s[k..]` sits inside `s`. */
  lemma PrefixOfSuffix(s: string, k: int, t: string, r: string)
    requires 0 <= k <= |s| && t == s[k..]
    requires |r| <= |t| && r == t[..|r|]
    ensures s[k..k + |r|] == r
    ensures s[k + |r|..] == t[|r|..]
  {
  }

  lemma TrimEndKeepsStart(t: string, r: string)
    requires t == [] || !IsWhitespace(t[0])
    requires r == TrimEnd(t)
    ensures Unpadded(r)
  {
    if r != [] { assert r[0] == t[0]; }
  }

  lemma {:induction false} TrimStartSkips(p: string, t: string)
    requires AllWhitespace(p)
    requires t == [] || !IsWhitespace(t[0])
    ensures TrimStart(p + t) == t
    decreases |p|
  {
    if p != [] {
      assert (p + t)[1..] == p[1..] + t;
      TrimStartSkips(p[1..], t);
    } else {
      assert p + t == t;
    }
  }

  lemma {:induction false} TrimEndSkips(t: string, q: string)
    requires AllWhitespace(q)
    requires t == [] || !IsWhitespace(t[|t| - 1])
    ensures TrimEnd(t + q) == t
    decreases |q|
  {
    if q != [] {
      assert (t + q)[..|t + q| - 1] == t + q[..|q| - 1];
      TrimEndSkips(t, q[..|q| - 1]);
    } else {
      assert t + q == t;
    }
  }

  /** `trim` is characterised by `IsTrimOf`: any unpadded core of `s` framed by
      whitespace is exactly what `Trim` returns. */
  lemma TrimUnique(s: string, m: string)
    requires IsTrimOf(s, m)
    ensures Trim(s) == m
  {
    var k :| FramedBy(s, k, m);
    var p, q := s[..k], s[k + |m|..];
    assert s == p + m + q;
    if m == [] {
      assert AllWhitespace(s) by {
        forall i | 0 <= i < |s| ensures IsWhitespace(s[i]) {
          if i < k { assert s[i] == p[i]; } else { assert s[i] == q[i - k]; }
        }
      }
    } else {
      assert s == p + (m + q);
      TrimStartSkips(p, m + q);
      TrimEndSkips(m, q);
    }
  }

  /** Trimming twice is trimming once. */
  lemma TrimIdempotent(s: string)
    ensures Trim(Trim(s)) == Trim(s)
  {
  }

  predicate IsDigit(c: char) {
    '0' <= c <= '9'
  }

  predicate AllDigits(s: string) {
    forall i :: 0 <= i < |s| ==> IsDigit(s[i])
  }

  /** The pattern `/^[0-9]{10}$/` (no flags): exactly ten ASCII digits, nothing else. */
  predicate MatchesMobilePattern(s: string) {
    |s| == 10 && AllDigits(s)
  }

  function DigitChar(d: nat): (c: char)
    requires d < 10
    ensures IsDigit(c)
  {
    ('0' as int + d) as char
  }

  function DigitValue(c: char): (d: nat)
    requires IsDigit(c)
    ensures d < 10 && DigitChar(d) == c
  {
    c as int - '0' as int
  }

  /** The decimal text of `n`, as `${n}` renders a non-negative integer below
      10^21 (from there JavaScript switches to exponent form). Every `Date.now()`
      value is below 8.64 * 10^15, so timestamps are always in that range. */
  function DecimalString(n: nat): (r: string)
    ensures r != [] && AllDigits(r)
    ensures r[0] == '0' ==> n == 0
    decreases n
  {
    if n < 10 then [DigitChar(n)] else DecimalString(n / 10) + [DigitChar(n % 10)]
  }

  /** The number a string of decimal digits denotes. */
  function DecimalValue(s: string): nat
    requires AllDigits(s)
  {
    if s == [] then 0 else 10 * DecimalValue(s[..|s| - 1]) + DigitValue(s[|s| - 1])
  }

  lemma {:induction false} DecimalRoundTrip(n: nat)
    ensures DecimalValue(DecimalString(n)) == n
    decreases n
  {
    if n >= 10 {
      var s := DecimalString(n);
      assert s[..|s| - 1] == DecimalString(n / 10);
      DecimalRoundTrip(n / 10);
    }
  }
}

=== FILE: news_card.dfy ===
/** The title shortening a news card applies before rendering (`truncateTitle`). */
module NewsCard {

  const DefaultMaxLength := 150
  const Ellipsis := "..."

  /** Where `substring(0, end)` stops: negative ends count as 0, ends past the
      string as its length. */
  function SubstringEnd(s: string, end: int): (k: nat)
    ensures k <= |s|
    ensures 0 <= end <= |s| ==> k == end
  {
    if end < 0 then 0 else if end > |s| then |s| else end
  }

  /** `truncateTitle(title, maxLength = 150)`: a title longer than `maxLength`
      keeps its first `maxLength` characters followed by an ellipsis; any other
      title is returned as it is. */
  function TruncateTitle(title: string, maxLength: int := DefaultMaxLength): (r: string)
    ensures |title| <= maxLength ==> r == title
    ensures |title| > maxLength ==>
      var k := SubstringEnd(title, maxLength);
      |r| == k + 3 && r[..k] == title[..k] && r[k..] == Ellipsis
  {
    if |title| > maxLength then title[..SubstringEnd(title, maxLength)] + Ellipsis else title
  }

  /** The shortened title is never longer than `maxLength` plus the ellipsis. */
  lemma TruncateBounded(title: string, maxLength: nat)
    ensures |TruncateTitle(title, maxLength)| <= maxLength + 3
  {
  }

  /** Truncating a title that was already truncated changes nothing. */
  lemma TruncateIdempotent(title: string, maxLength: int)
    ensures TruncateTitle(TruncateTitle(title, maxLength), maxLength) == TruncateTitle(title, maxLength)
  {
  }

  /** With no length given, titles of up to 150 characters are kept and a
      151-character title becomes 153 characters ending in the ellipsis. */
  lemma DefaultLength(title: string)
    ensures |title| <= 150 ==> TruncateTitle(title) == title
    ensures |title| == 151 ==> |TruncateTitle(title)| == 153 && TruncateTitle(title)[..150] == title[..150]
  {
  }
}

=== FILE: news_model.dfy ===
/**
 * The `News` mongoose model: the stored article record and what `News.create`
 * does to a document before it is inserted: cast the author to an ObjectId,
 * trim the title, enforce the required paths and stamp both timestamps.
 */
module NewsModel {
  import opened Wrappers
  import opened JsText

  predicate IsHexDigit(c: char) {
    ('0' <= c <= '9') || ('a' <= c <= 'f') || ('A' <= c <= 'F')
  }

  predicate IsLowerHexDigit(c: char) {
    ('0' <= c <= '9') || ('a' <= c <= 'f')
  }

  /** A string mongoose casts to an ObjectId: 24 hexadecimal digits. */
  predicate IsObjectIdHex(s: string) {
    |s| == 24 && forall i :: 0 <= i < |s| ==> IsHexDigit(s[i])
  }

  /** An ObjectId as it is stored and printed: 24 lower-case hexadecimal digits. */
  predicate IsObjectId(s: string) {
    |s| == 24 && forall i :: 0 <= i < |s| ==> IsLowerHexDigit(s[i])
  }

  /** The number a hexadecimal digit stands for, whatever its case. */
  function HexValue(c: char): (v: nat)
    requires IsHexDigit(c)
    ensures v < 16
  {
    if '0' <= c <= '9' then c as int - '0' as int
    else if 'a' <= c <= 'f' then c as int - 'a' as int + 10
    else c as int - 'A' as int + 10
  }

  function LowerHexDigit(c: char): (d: char)
    requires IsHexDigit(c)
    ensures IsLowerHexDigit(d)
    ensures HexValue(d) == HexValue(c)
    ensures IsLowerHexDigit(c) ==> d == c
  {
    if 'A' <= c <= 'F' then (c as int - 'A' as int + 'a' as int) as char else c
  }

  /** The ObjectId a hexadecimal string casts to, digit by digit. */
  function CastObjectId(s: string): (id: string)
    requires IsObjectIdHex(s)
    ensures IsObjectId(id)
    ensures forall i :: 0 <= i < 24 ==> HexValue(id[i]) == HexValue(s[i])
    ensures forall i :: 0 <= i < 24 ==> id[i] == LowerHexDigit(s[i])
  {
    seq(24, i requires 0 <= i < 24 => LowerHexDigit(s[i]))
  }

  /** The stored record (`INews`): store-assigned id and timestamps, optional video link. */
  datatype News = News(
    id: string,
    title: string,
    description: string,
    thumbnail: string,
    videoLink: Option<string>,
    category: string,
    author: string,
    createdAt: nat,
    updatedAt: nat)

  /** The invariant every record written through the schema satisfies: each
      required string is present and non-empty, the title carries no
      surrounding whitespace, the author is an ObjectId reference, and the
      timestamps are in order. */
  predicate Valid(n: News) {
    && n.title != [] && Trim(n.title) == n.title
    && n.description != []
    && n.thumbnail != []
    && n.category != []
    && IsObjectId(n.author)
    && n.createdAt <= n.updatedAt
  }

  /** A document handed to `News.create`: each schema path set or absent. */
  datatype NewsInput = NewsInput(
    title: Option<string>,
    description: Option<string>,
    thumbnail: Option<string>,
    videoLink: Option<string>,
    category: Option<string>,
    author: Option<string>)

  /** One entry of a mongoose `ValidationError`. */
  datatype PathError = Required(path: string) | CastFailed(path: string)

  /** mongoose's `required` check for a String path: set and not empty. */
  predicate Present(v: Option<string>) {
    v.Some? && v.value != []
  }

  /** The title after the schema's `trim` setter. */
  function TrimmedTitle(doc: NewsInput): Option<string> {
    if doc.title.Some? then Some(Trim(doc.title.value)) else None
  }

  /** Every path constraint of `newsSchema` holds. */
  predicate Admissible(doc: NewsInput) {
    && Present(TrimmedTitle(doc))
    && Present(doc.description)
    && Present(doc.thumbnail)
    && Present(doc.category)
    && doc.author.Some? && IsObjectIdHex(doc.author.value)
  }

  function RequiredError(v: Option<string>, path: string): (errs: seq<PathError>)
    ensures errs == [] <==> Present(v)
    ensures forall e :: e in errs ==> e == Required(path)
  {
    if Present(v) then [] else [Required(path)]
  }

  function AuthorErrors(author: Option<string>): (errs: seq<PathError>)
    ensures errs == [] <==> author.Some? && IsObjectIdHex(author.value)
    ensures Required("author") in errs <==> author.None?
    ensures CastFailed("author") in errs <==> author.Some? && !IsObjectIdHex(author.value)
    ensures forall e :: e in errs ==> e.path == "author"
  {
    match author
    case None => [Required("author")]
    case Some(s) => if IsObjectIdHex(s) then [] else [CastFailed("author")]
  }

  /** The validation errors of a document, in schema path order. */
  function PathErrors(doc: NewsInput): (errs: seq<PathError>)
    ensures errs == [] <==> Admissible(doc)
    ensures Required("author") in errs <==> doc.author.None?
    ensures CastFailed("author") in errs <==> doc.author.Some? && !IsObjectIdHex(doc.author.value)
    ensures Required("title") in errs <==> !Present(TrimmedTitle(doc))
  {
    var t := RequiredError(TrimmedTitle(doc), "title");
    var d := RequiredError(doc.description, "description");
    var th := RequiredError(doc.thumbnail, "thumbnail");
    var c := RequiredError(doc.category, "category");
    var au := AuthorErrors(doc.author);
    RequiredPartsMembership(t, d, th, c, au);
    t + d + th + c + au
  }

  /** Which errors the five per-path lists contribute to their concatenation. */
  lemma RequiredPartsMembership(t: seq<PathError>, d: seq<PathError>, th: seq<PathError>, c: seq<PathError>, au: seq<PathError>)
    requires forall e :: e in t ==> e == Required("title")
    requires forall e :: e in d ==> e == Required("description")
    requires forall e :: e in th ==> e == Required("thumbnail")
    requires forall e :: e in c ==> e == Required("category")
    requires forall e :: e in au ==> e.path == "author"
    ensures t + d + th + c + au == [] <==> t == [] && d == [] && th == [] && c == [] && au == []
    ensures Required("author") in t + d + th + c + au <==> Required("author") in au
    ensures CastFailed("author") in t + d + th + c + au <==> CastFailed("author") in au
    ensures Required("title") in t + d + th + c + au <==> t != []
  {
    if t != [] { assert t[0] in t; }
  }

  /** A document whose only fault is the absent author is refused with that
      one error and no other. */
  lemma OnlyAuthorMissing(doc: NewsInput)
    requires Present(TrimmedTitle(doc)) && Present(doc.description)
    requires Present(doc.thumbnail) && Present(doc.category)
    requires doc.author.None?
    ensures PathErrors(doc) == [Required("author")]
  {
    assert RequiredError(TrimmedTitle(doc), "title") == [];
    assert RequiredError(doc.description, "description") == [];
    assert RequiredError(doc.thumbnail, "thumbnail") == [];
    assert RequiredError(doc.category, "category") == [];
  }

  /** `News.create(doc)` as far as the schema goes: a document that passes every
      path constraint becomes a valid record holding its values (title trimmed,
      author cast to an ObjectId) stamped with `now` twice; any other document is
      refused with its path errors. */
  function Create(doc: NewsInput, id: string, now: nat): (r: Result<News, seq<PathError>>)
    ensures r.Ok? <==> Admissible(doc)
    ensures r.Err? ==> r.error != [] && r.error == PathErrors(doc)
    ensures r.Ok? ==> Valid(r.value)
    ensures r.Ok? ==> r.value.id == id && r.value.createdAt == now && r.value.updatedAt == now
    ensures r.Ok? ==> r.value.title == Trim(doc.title.value)
    ensures r.Ok? ==> && r.value.description == doc.description.value
                      && r.value.thumbnail == doc.thumbnail.value
                      && r.value.videoLink == doc.videoLink
                      && r.value.category == doc.category.value
                      && r.value.author == CastObjectId(doc.author.value)
  {
    var errs := PathErrors(doc);
    if errs != [] then Err(errs)
    else
      var title := Trim(doc.title.value);
      TrimIdempotent(doc.title.value);
      Ok(News(id, title, doc.description.value, doc.thumbnail.value, doc.videoLink,
              doc.category.value, CastObjectId(doc.author.value), now, now))
  }

  /** The video link takes no part in admission: dropping or setting it never
      changes whether a document is accepted. */
  lemma VideoLinkOptional(doc: NewsInput, link: Option<string>)
    ensures Create(doc, "", 0).Ok? <==> Create(doc.(videoLink := link), "", 0).Ok?
  {
  }

  /** A title made only of whitespace counts as missing once trimmed. */
  lemma BlankTitleRefused(doc: NewsInput)
    requires doc.title.Some? && AllWhitespace(doc.title.value)
    ensures Create(doc, "", 0).Err?
    ensures Required("title") in Create(doc, "", 0).error
  {
    var s := doc.title.value;
    assert s + [] == s;
    TrimStartSkips(s, []);
    assert Trim(s) == [];
  }
}

=== FILE: news_route.dfy ===
/**
 * The news collection endpoint (`/api/news`).
 *
 * POST connects to the database, builds `newsData` from the multipart form
 * (an empty or absent video link becomes `null`, the author is a fixed
 * placeholder id), parses it with `newsFormSchema`, and hands the parsed
 * object to `News.create`. GET lists every stored item, newest first.
 *
 * zod's object schemas drop keys they do not declare, and `newsFormSchema`
 * declares no `author`: as written, the document reaching `News.create` has
 * no author and the model's required `author` path refuses it. `PostAsWritten`
 * models that; `Post` passes the placeholder author on, as the handler evidently
 * intends.
 */
module NewsRoute {
  import opened Wrappers
  import opened JsText
  import opened Forms
  import opened NewsModel

  const TitleMessage := "Title is required"
  const DescriptionMessage := "Description is required"
  const ThumbnailMessage := "Invalid thumbnail URL"
  const VideoLinkMessage := "Invalid video URL"
  const CategoryMessage := "Category is required"

  /** The author id hard-coded into every `newsData`. */
  const PlaceholderAuthor := "64f5c3d205c6a91bf751e123"

  const CreatedMessage := "News created successfully."
  const ValidationFailedMessage := "Validation failed"
  const CreateFailedMessage := "Failed to create news item."
  const ListedMessage := "News items retrieved successfully."
  const ListFailedMessage := "Failed to retrieve news items."

  /** The multipart entries POST reads. */
  datatype NewsForm = NewsForm(title: FormValue, description: FormValue, thumbnail: FormValue, videoLink: FormValue, category: FormValue)

  /** `newsData`: the form entries, the normalised video link and the placeholder author. */
  datatype NewsData = NewsData(title: FormValue, description: FormValue, thumbnail: FormValue, videoLink: FormValue, category: FormValue, author: string)

  function BuildNewsData(f: NewsForm): (d: NewsData)
    ensures d.title == f.title && d.description == f.description && d.thumbnail == f.thumbnail && d.category == f.category
    ensures d.videoLink.Null? <==> !Truthy(f.videoLink)
    ensures !d.videoLink.Null? ==> d.videoLink == f.videoLink
    ensures d.author == PlaceholderAuthor
  {
    NewsData(f.title, f.description, f.thumbnail, OrNull(f.videoLink), f.category, PlaceholderAuthor)
  }

  /** What `newsFormSchema.parse` returns: the five schema keys and nothing else. */
  datatype ParsedNews = ParsedNews(title: string, description: string, thumbnail: string, videoLink: Option<string>, category: string)

  predicate VideoLinkOk(syn: Syntax, v: FormValue) {
    v.Null? || (v.Str? && syn.isUrl(v.text))
  }

  /** Every rule of `newsFormSchema` holds. */
  /** `z.string().min(1)`: at least one character. */
  predicate NonEmpty(s: string) { |s| >= 1 }

  predicate SchemaAccepts(syn: Syntax, d: NewsData) {
    && d.title.Str? && NonEmpty(d.title.text)
    && d.description.Str? && NonEmpty(d.description.text)
    && d.thumbnail.Str? && syn.isUrl(d.thumbnail.text)
    && VideoLinkOk(syn, d.videoLink)
    && d.category.Str? && NonEmpty(d.category.text)
  }

  /** `newsFormSchema.parse(newsData)`: the parsed object, or the ZodError's issue list. */
  function Parse(syn: Syntax, d: NewsData): (r: Result<ParsedNews, seq<Issue>>)
    ensures r.Ok? <==> SchemaAccepts(syn, d)
    ensures r.Ok? ==> && r.value.title == d.title.text
                      && r.value.description == d.description.text
                      && r.value.thumbnail == d.thumbnail.text
                      && r.value.category == d.category.text
                      && (r.value.videoLink.None? <==> d.videoLink.Null?)
                      && (r.value.videoLink.Some? ==> r.value.videoLink.value == d.videoLink.text)
    ensures r.Err? ==> r.error != []
    ensures r.Err? ==> (HasIssue(r.error, "title") <==> !(d.title.Str? && |d.title.text| >= 1))
    ensures r.Err? ==> (HasIssue(r.error, "description") <==> !(d.description.Str? && |d.description.text| >= 1))
    ensures r.Err? ==> (HasIssue(r.error, "thumbnail") <==> !(d.thumbnail.Str? && syn.isUrl(d.thumbnail.text)))
    ensures r.Err? ==> (HasIssue(r.error, "videoLink") <==> !VideoLinkOk(syn, d.videoLink))
    ensures r.Err? ==> (HasIssue(r.error, "category") <==> !(d.category.Str? && |d.category.text| >= 1))
    ensures r.Err? ==> (RuleIssue("title", TitleMessage) in r.error <==> d.title.Str? && |d.title.text| < 1)
    ensures r.Err? ==> (RuleIssue("description", DescriptionMessage) in r.error <==> d.description.Str? && |d.description.text| < 1)
    ensures r.Err? ==> (RuleIssue("thumbnail", ThumbnailMessage) in r.error <==> d.thumbnail.Str? && !syn.isUrl(d.thumbnail.text))
    ensures r.Err? ==> (RuleIssue("videoLink", VideoLinkMessage) in r.error <==> d.videoLink.Str? && !syn.isUrl(d.videoLink.text))
    ensures r.Err? ==> (RuleIssue("category", CategoryMessage) in r.error <==> d.category.Str? && |d.category.text| < 1)
  {
    var issues := SchemaIssues(syn, d);
    SchemaIssuesFields(syn, d);
    SchemaIssuesMessages(syn, d);
    if issues == [] then
      var link := if d.videoLink.Str? then Some(d.videoLink.text) else None;
      Ok(ParsedNews(d.title.text, d.description.text, d.thumbnail.text, link, d.category.text))
    else
      Err(issues)
  }

  /** The issues `newsFormSchema` reports for `newsData`, in schema order. */
  function SchemaIssues(syn: Syntax, d: NewsData): seq<Issue> {
    CheckString("title", d.title, NonEmpty, TitleMessage)
    + CheckString("description", d.description, NonEmpty, DescriptionMessage)
    + CheckString("thumbnail", d.thumbnail, syn.isUrl, ThumbnailMessage)
    + CheckNullableString("videoLink", d.videoLink, syn.isUrl, VideoLinkMessage)
    + CheckString("category", d.category, NonEmpty, CategoryMessage)
  }

  /** No issue exactly when the schema accepts, and an issue on a field exactly
      when that field breaks its rule. */
  lemma SchemaIssuesFields(syn: Syntax, d: NewsData)
    ensures SchemaIssues(syn, d) == [] <==> SchemaAccepts(syn, d)
    ensures HasIssue(SchemaIssues(syn, d), "title") <==> !(d.title.Str? && |d.title.text| >= 1)
    ensures HasIssue(SchemaIssues(syn, d), "description") <==> !(d.description.Str? && |d.description.text| >= 1)
    ensures HasIssue(SchemaIssues(syn, d), "thumbnail") <==> !(d.thumbnail.Str? && syn.isUrl(d.thumbnail.text))
    ensures HasIssue(SchemaIssues(syn, d), "videoLink") <==> !VideoLinkOk(syn, d.videoLink)
    ensures HasIssue(SchemaIssues(syn, d), "category") <==> !(d.category.Str? && |d.category.text| >= 1)
  {
    var t := CheckString("title", d.title, NonEmpty, TitleMessage);
    var de := CheckString("description", d.description, NonEmpty, DescriptionMessage);
    var th := CheckString("thumbnail", d.thumbnail, syn.isUrl, ThumbnailMessage);
    var v := CheckNullableString("videoLink", d.videoLink, syn.isUrl, VideoLinkMessage);
    var c := CheckString("category", d.category, NonEmpty, CategoryMessage);
    NewsIssuesReportFields(t, de, th, v, c);
  }

  /** A string that fails its check carries the schema's own message, and only then. */
  lemma SchemaIssuesMessages(syn: Syntax, d: NewsData)
    ensures RuleIssue("title", TitleMessage) in SchemaIssues(syn, d) <==> d.title.Str? && |d.title.text| < 1
    ensures RuleIssue("description", DescriptionMessage) in SchemaIssues(syn, d) <==> d.description.Str? && |d.description.text| < 1
    ensures RuleIssue("thumbnail", ThumbnailMessage) in SchemaIssues(syn, d) <==> d.thumbnail.Str? && !syn.isUrl(d.thumbnail.text)
    ensures RuleIssue("videoLink", VideoLinkMessage) in SchemaIssues(syn, d) <==> d.videoLink.Str? && !syn.isUrl(d.videoLink.text)
    ensures RuleIssue("category", CategoryMessage) in SchemaIssues(syn, d) <==> d.category.Str? && |d.category.text| < 1
  {
    var t := CheckString("title", d.title, NonEmpty, TitleMessage);
    var de := CheckString("description", d.description, NonEmpty, DescriptionMessage);
    var th := CheckString("thumbnail", d.thumbnail, syn.isUrl, ThumbnailMessage);
    var v := CheckNullableString("videoLink", d.videoLink, syn.isUrl, VideoLinkMessage);
    var c := CheckString("category", d.category, NonEmpty, CategoryMessage);
    MessagesOnPath(t, de, th, v, c, RuleIssue("title", TitleMessage));
    MessagesOnPath(t, de, th, v, c, RuleIssue("description", DescriptionMessage));
    MessagesOnPath(t, de, th, v, c, RuleIssue("thumbnail", ThumbnailMessage));
    MessagesOnPath(t, de, th, v, c, RuleIssue("videoLink", VideoLinkMessage));
    MessagesOnPath(t, de, th, v, c, RuleIssue("category", CategoryMessage));
  }

  /** Each field's check contributes issues on that field only, so the joined
      list names a field exactly when that field's check failed. */
  lemma NewsIssuesReportFields(t: seq<Issue>, de: seq<Issue>, th: seq<Issue>, v: seq<Issue>, c: seq<Issue>)
    requires forall i :: 0 <= i < |t| ==> t[i].path == "title"
    requires forall i :: 0 <= i < |de| ==> de[i].path == "description"
    requires forall i :: 0 <= i < |th| ==> th[i].path == "thumbnail"
    requires forall i :: 0 <= i < |v| ==> v[i].path == "videoLink"
    requires forall i :: 0 <= i < |c| ==> c[i].path == "category"
    ensures HasIssue(t + de + th + v + c, "title") <==> t != []
    ensures HasIssue(t + de + th + v + c, "description") <==> de != []
    ensures HasIssue(t + de + th + v + c, "thumbnail") <==> th != []
    ensures HasIssue(t + de + th + v + c, "videoLink") <==> v != []
    ensures HasIssue(t + de + th + v + c, "category") <==> c != []
  {
    IssuesOnPath(t, de, th, v, c, "title");
    IssuesOnPath(t, de, th, v, c, "description");
    IssuesOnPath(t, de, th, v, c, "thumbnail");
    IssuesOnPath(t, de, th, v, c, "videoLink");
    IssuesOnPath(t, de, th, v, c, "category");
    if t != [] { assert t[0].path == "title"; }
    if de != [] { assert de[0].path == "description"; }
    if th != [] { assert th[0].path == "thumbnail"; }
    if v != [] { assert v[0].path == "videoLink"; }
    if c != [] { assert c[0].path == "category"; }
  }

  /** An issue is in the joined list exactly when it is in the part for its field. */
  lemma MessagesOnPath(t: seq<Issue>, de: seq<Issue>, th: seq<Issue>, v: seq<Issue>, c: seq<Issue>, x: Issue)
    requires forall i :: 0 <= i < |t| ==> t[i].path == "title"
    requires forall i :: 0 <= i < |de| ==> de[i].path == "description"
    requires forall i :: 0 <= i < |th| ==> th[i].path == "thumbnail"
    requires forall i :: 0 <= i < |v| ==> v[i].path == "videoLink"
    requires forall i :: 0 <= i < |c| ==> c[i].path == "category"
    ensures x.path == "title" ==> (x in t + de + th + v + c <==> x in t)
    ensures x.path == "description" ==> (x in t + de + th + v + c <==> x in de)
    ensures x.path == "thumbnail" ==> (x in t + de + th + v + c <==> x in th)
    ensures x.path == "videoLink" ==> (x in t + de + th + v + c <==> x in v)
    ensures x.path == "category" ==> (x in t + de + th + v + c <==> x in c)
  {
  }

  /** The joined list names `path` exactly when one of its parts does. */
  lemma IssuesOnPath(t: seq<Issue>, de: seq<Issue>, th: seq<Issue>, v: seq<Issue>, c: seq<Issue>, path: string)
    ensures HasIssue(t + de + th + v + c, path) <==>
      HasIssue(t, path) || HasIssue(de, path) || HasIssue(th, path) || HasIssue(v, path) || HasIssue(c, path)
  {
    HasIssueAppend(t, de, path);
    HasIssueAppend(t + de, th, path);
    HasIssueAppend(t + de + th, v, path);
    HasIssueAppend(t + de + th + v, c, path);
  }

  /** The document `News.create` receives as written: the parsed object, which has no author. */
  function AsWrittenDocument(p: ParsedNews): NewsInput {
    NewsInput(Some(p.title), Some(p.description), Some(p.thumbnail), p.videoLink, Some(p.category), None)
  }

  /** The document with the author of `newsData` carried over. */
  function Document(p: ParsedNews, author: string): NewsInput {
    NewsInput(Some(p.title), Some(p.description), Some(p.thumbnail), p.videoLink, Some(p.category), Some(author))
  }

  /** Oracle results of the database for one request. */
  datatype Database = Database(
    connects: bool, connectError: string,   // `connectDB()`
    inserts: bool, insertError: string,     // the insert behind `News.create`
    freshId: string, now: nat)              // id and timestamp the store assigns

  /** Why a POST failed with 500. */
  datatype Failure = ConnectFault(message: string) | ModelRejected(errors: seq<PathError>) | InsertFault(message: string)

  datatype PostOutcome = Created(news: News) | ValidationFailed(issues: seq<Issue>) | Failed(cause: Failure)

  /** A POST's outcome and the collection afterwards. */
  datatype PostRun = PostRun(outcome: PostOutcome, stored: seq<News>)

  /** `News.create(doc)`: schema validation, then the insert. */
  function Insert(db: Database, stored: seq<News>, doc: NewsInput): (run: PostRun)
    ensures run.outcome.ValidationFailed? == false
    ensures run.outcome.Created? <==> Admissible(doc) && db.inserts
    ensures run.outcome.Created? ==> run.stored == stored + [run.outcome.news] && Valid(run.outcome.news)
    ensures !run.outcome.Created? ==> run.stored == stored
    ensures !Admissible(doc) ==> run.outcome == Failed(ModelRejected(PathErrors(doc)))
    ensures run.outcome.Created? ==> Create(doc, db.freshId, db.now) == Ok(run.outcome.news)
    ensures Admissible(doc) && !db.inserts ==> run.outcome == Failed(InsertFault(db.insertError))
  {
    match Create(doc, db.freshId, db.now)
    case Err(errors) => PostRun(Failed(ModelRejected(errors)), stored)
    case Ok(news) =>
      if db.inserts then PostRun(Created(news), stored + [news])
      else PostRun(Failed(InsertFault(db.insertError)), stored)
  }

  /** POST as written. No request ever creates an article: whatever the
      schema accepts reaches the model without an author. */
  function PostAsWritten(syn: Syntax, db: Database, stored: seq<News>, f: NewsForm): (run: PostRun)
    ensures !run.outcome.Created?
    ensures run.stored == stored
    ensures run.outcome.ValidationFailed? <==> db.connects && !SchemaAccepts(syn, BuildNewsData(f))
    ensures run.outcome.ValidationFailed? ==> run.outcome.issues == Parse(syn, BuildNewsData(f)).error
    ensures !db.connects ==> run.outcome == Failed(ConnectFault(db.connectError))
    ensures db.connects && SchemaAccepts(syn, BuildNewsData(f)) ==>
      run.outcome.Failed? && run.outcome.cause.ModelRejected? && Required("author") in run.outcome.cause.errors
  {
    if !db.connects then PostRun(Failed(ConnectFault(db.connectError)), stored)
    else
      match Parse(syn, BuildNewsData(f))
      case Err(issues) => PostRun(ValidationFailed(issues), stored)
      case Ok(p) => Insert(db, stored, AsWrittenDocument(p))
  }

  /** POST with the placeholder author passed on to the model. A schema
      failure is a 400 that stores nothing; a created article holds the
      submitted values (title trimmed) and is appended to the collection. */
  function Post(syn: Syntax, db: Database, stored: seq<News>, f: NewsForm): (run: PostRun)
    requires RejectsEmpty(syn)
    ensures run.outcome.ValidationFailed? <==> db.connects && !SchemaAccepts(syn, BuildNewsData(f))
    ensures run.outcome.ValidationFailed? ==> run.outcome.issues != []
    ensures run.outcome.ValidationFailed? ==> run.outcome.issues == Parse(syn, BuildNewsData(f)).error
    ensures !db.connects ==> run.outcome == Failed(ConnectFault(db.connectError))
    ensures db.connects && SchemaAccepts(syn, BuildNewsData(f)) && Trim(f.title.text) == [] ==>
      run.outcome.Failed? && run.outcome.cause.ModelRejected? && Required("title") in run.outcome.cause.errors
    ensures db.connects && SchemaAccepts(syn, BuildNewsData(f)) && Trim(f.title.text) != [] && !db.inserts ==>
      run.outcome == Failed(InsertFault(db.insertError))
    ensures run.outcome.Created? <==>
      db.connects && SchemaAccepts(syn, BuildNewsData(f)) && Trim(f.title.text) != [] && db.inserts
    ensures !run.outcome.Created? ==> run.stored == stored
    ensures run.outcome.Created? ==>
      var n := run.outcome.news;
      && run.stored == stored + [n]
      && Valid(n)
      && n.id == db.freshId && n.createdAt == db.now && n.updatedAt == db.now
      && n.title == Trim(f.title.text)
      && n.description == f.description.text
      && n.thumbnail == f.thumbnail.text
      && n.category == f.category.text
      && (n.videoLink.None? <==> !Truthy(f.videoLink))
      && (n.videoLink.Some? ==> n.videoLink.value == f.videoLink.text)
      && n.author == PlaceholderAuthor
  {
    if !db.connects then PostRun(Failed(ConnectFault(db.connectError)), stored)
    else
      match Parse(syn, BuildNewsData(f))
      case Err(issues) => PostRun(ValidationFailed(issues), stored)
      case Ok(p) =>
        PlaceholderIsObjectId();
        Insert(db, stored, Document(p, PlaceholderAuthor))
  }

  lemma PlaceholderIsObjectId()
    ensures IsObjectIdHex(PlaceholderAuthor) && IsObjectId(PlaceholderAuthor)
    ensures CastObjectId(PlaceholderAuthor) == PlaceholderAuthor
  {
    var s := PlaceholderAuthor;
    assert forall i :: 0 <= i < 24 ==> IsLowerHexDigit(s[i]);
  }

  datatype PostBody = PostBody(success: bool, message: string, data: Option<News>, errors: seq<Issue>, error: Option<Failure>)

  datatype PostResponse = PostResponse(status: nat, body: PostBody)

  /** The JSON response for each POST outcome. */
  function RespondPost(o: PostOutcome): (r: PostResponse)
    ensures r.body.success <==> r.status == 201
    ensures r.status == 201 <==> o.Created?
    ensures r.status == 400 <==> o.ValidationFailed?
    ensures r.status == 500 <==> o.Failed?
    ensures o.Created? ==> r.body.data == Some(o.news) && r.body.message == CreatedMessage
    ensures o.ValidationFailed? ==> r.body.errors == o.issues && r.body.message == ValidationFailedMessage
    ensures o.Failed? ==> r.body.error == Some(o.cause) && r.body.message == CreateFailedMessage
  {
    match o
    case Created(n) => PostResponse(201, PostBody(true, CreatedMessage, Some(n), [], None))
    case ValidationFailed(issues) => PostResponse(400, PostBody(false, ValidationFailedMessage, None, issues, None))
    case Failed(cause) => PostResponse(500, PostBody(false, CreateFailedMessage, None, [], Some(cause)))
  }

  /** One concrete request: every field well-formed, the database up. The
      e-mail and URL patterns accept any non-empty string. */
  const ExampleSyntax := Syntax(s => s != [], s => s != [])
  const ExampleDb := Database(true, "", true, "", "675a1f00c0ffee0000000001", 1733702400000)
  const ExampleForm := NewsForm(Str("Budget passed"), Str("Parliament approved the budget."),
                                Str("https://img.example/budget.jpg"), Str(""), Str("Politics"))

  lemma ExampleTitleKept()
    ensures Trim(ExampleForm.title.text) == ExampleForm.title.text
  {
    var t := ExampleForm.title.text;
    assert !IsWhitespace(t[0]) && !IsWhitespace(t[|t| - 1]);
    assert FramedBy(t, 0, t);
    TrimUnique(t, t);
  }

  lemma ExampleFormAccepted()
    ensures SchemaAccepts(ExampleSyntax, BuildNewsData(ExampleForm))
  {
    assert !Truthy(ExampleForm.videoLink);
  }

  /** The example request reaches the model: connected, accepted by the
      schema, title not blank. */
  lemma ExampleReachesModel()
    ensures ExampleDb.connects && ExampleDb.inserts && RejectsEmpty(ExampleSyntax)
    ensures SchemaAccepts(ExampleSyntax, BuildNewsData(ExampleForm)) && Trim(ExampleForm.title.text) != []
  {
    ExampleTitleKept();
    ExampleFormAccepted();
    assert ExampleForm.title.text != [];
  }

  /** The discrepancy on the example request: as written it fails with 500 for
      want of an author; with the author passed on it creates the article with 201. */
  lemma AsWrittenRejectsWellFormedPost()
    ensures RespondPost(PostAsWritten(ExampleSyntax, ExampleDb, [], ExampleForm).outcome).status == 500
    ensures PostAsWritten(ExampleSyntax, ExampleDb, [], ExampleForm).outcome == Failed(ModelRejected([Required("author")]))
    ensures RespondPost(Post(ExampleSyntax, ExampleDb, [], ExampleForm).outcome).status == 201
  {
    ExampleReachesModel();
    AsWrittenLosesAuthor(ExampleSyntax, ExampleDb, [], ExampleForm);
  }

  /** The discrepancy for every request that reaches the model: once the
      database connects, the schema accepts the form and the title is not
      blank, the handler as written fails with exactly one error, the missing
      `author`, whereas with the author passed on the article is created
      whenever the insert succeeds. */
  lemma AsWrittenLosesAuthor(syn: Syntax, db: Database, stored: seq<News>, f: NewsForm)
    requires RejectsEmpty(syn)
    ensures db.connects && SchemaAccepts(syn, BuildNewsData(f)) && Trim(f.title.text) != [] ==>
      PostAsWritten(syn, db, stored, f).outcome == Failed(ModelRejected([Required("author")]))
    ensures db.connects && SchemaAccepts(syn, BuildNewsData(f)) && Trim(f.title.text) != [] ==>
      (Post(syn, db, stored, f).outcome.Created? <==> db.inserts)
  {
    if db.connects && SchemaAccepts(syn, BuildNewsData(f)) && Trim(f.title.text) != [] {
      var p := Parse(syn, BuildNewsData(f)).value;
      var doc := AsWrittenDocument(p);
      OnlyAuthorMissing(doc);
      assert PostAsWritten(syn, db, stored, f) == Insert(db, stored, doc);
    }
  }

  // ----- GET -----

  /** Ordered by `createdAt`, newest first. */
  predicate NewestFirst(items: seq<News>) {
    forall i, j :: 0 <= i < j < |items| ==> items[i].createdAt >= items[j].createdAt
  }

  function InsertNewestFirst(x: News, items: seq<News>): (r: seq<News>)
    requires NewestFirst(items)
    ensures NewestFirst(r)
    ensures multiset(r) == multiset(items) + multiset{x}
    ensures |r| == |items| + 1
    ensures forall k :: 0 <= k < |r| ==> r[k] == x || r[k] in items
  {
    if items == [] || x.createdAt >= items[0].createdAt then [x] + items
    else
      var rest := InsertNewestFirst(x, items[1..]);
      assert items == [items[0]] + items[1..];
      NoNewerThanHead(x, items, rest);
      [items[0]] + rest
  }

  /** Everything inserted behind the head of a newest-first list is no newer than it. */
  lemma NoNewerThanHead(x: News, items: seq<News>, rest: seq<News>)
    requires NewestFirst(items) && items != [] && x.createdAt < items[0].createdAt
    requires NewestFirst(rest)
    requires forall k :: 0 <= k < |rest| ==> rest[k] == x || rest[k] in items[1..]
    ensures NewestFirst([items[0]] + rest)
  {
    forall k | 0 <= k < |rest| ensures rest[k].createdAt <= items[0].createdAt {
      if rest[k] != x {
        var m :| 0 <= m < |items[1..]| && items[1..][m] == rest[k];
        assert items[m + 1] == rest[k];
      }
    }
    var r := [items[0]] + rest;
    forall i, j | 0 <= i < j < |r| ensures r[i].createdAt >= r[j].createdAt {
      if i > 0 { assert r[i] == rest[i - 1] && r[j] == rest[j - 1]; }
      else { assert r[j] == rest[j - 1]; }
    }
  }

  /** `.sort({ createdAt: -1 })`: the same items, newest first. */
  function SortNewestFirst(items: seq<News>): (r: seq<News>)
    ensures NewestFirst(r)
    ensures multiset(r) == multiset(items)
  {
    if items == [] then []
    else
      assert items == [items[0]] + items[1..];
      InsertNewestFirst(items[0], SortNewestFirst(items[1..]))
  }

  datatype ListResponse = ListResponse(status: nat, success: bool, message: string, data: seq<News>)

  /** GET: with the database readable, 200 and every stored item newest first;
      otherwise 500 with an empty list. No filter is applied. */
  function List(stored: seq<News>, readable: bool): (r: ListResponse)
    ensures r.success <==> readable
    ensures r.status == (if readable then 200 else 500)
    ensures readable ==> NewestFirst(r.data) && multiset(r.data) == multiset(stored)
    ensures !readable ==> r.data == []
    ensures r.message == (if readable then ListedMessage else ListFailedMessage)
  {
    if readable then ListResponse(200, true, ListedMessage, SortNewestFirst(stored))
    else ListResponse(500, false, ListFailedMessage, [])
  }

  /** An article POST creates is listed by the next successful GET. */
  lemma CreatedArticleIsListed(syn: Syntax, db: Database, stored: seq<News>, f: NewsForm)
    requires RejectsEmpty(syn)
    ensures var run := Post(syn, db, stored, f);
            run.outcome.Created? ==> run.outcome.news in List(run.stored, true).data
  {
    var run := Post(syn, db, stored, f);
    if run.outcome.Created? {
      var data := List(run.stored, true).data;
      assert run.outcome.news in multiset(run.stored);
      assert run.outcome.news in multiset(data);
    }
  }

  /** A POST that fails validation leaves the listing exactly as it was. */
  lemma RejectedPostChangesNothing(syn: Syntax, db: Database, stored: seq<News>, f: NewsForm, readable: bool)
    requires RejectsEmpty(syn)
    requires !Post(syn, db, stored, f).outcome.Created?
    ensures List(Post(syn, db, stored, f).stored, readable) == List(stored, readable)
  {
  }
}

=== FILE: wrappers.dfy ===
/** Failure-carrying values shared by every module of the model. */
module Wrappers {

  /** A value that may be absent (a JavaScript `undefined`/`null`, an unset field). */
  datatype Option<+T> = None | Some(value: T)

  /** Either a value or the error that prevented it. */
  datatype Result<+T, +E> = Ok(value: T) | Err(error: E)
}
